=== FILE: README.md ===
# smapi core in Dafny

A model of the decision and text-building logic of `smapi`, a Python 2 client
layer for two remote services:

- the **Zoho REST client** (`smapi/zoho.py`): scope-name resolution, token
  issuance with its two-tier body decoding (JSON first, then `KEY=VALUE`
  lines), the token-shape check made when a client is constructed, the REST
  call with its method whitelist, URL and authorization header, the
  classification of a REST reply (data, data plus warning, or error), and the
  raise-or-return decision of `_log`;
- the **SmarterMail admin client** (`smapi/base.py`): constructor validation
  of server, user name, password and port, option lookup with defaults, the
  service whitelist, the service URL
  `scheme://host[:port]/Services/svc<Service>.asmx/<Method>` and the
  credentials added to every call;
- the **error values** (`smapi/exc.py`): what an `SMAPIError` / `ZohoError`
  carries, its `str` and `repr`, the `dump_objects` rendering and the
  `ZohoError` fallback for `http_response`.

Every operation is a pure function returning `Result<T, Error>`: `Err(e)` is
the exception the code raises, and "log and return `None`" is `Ok(None)`.
The network is a function-typed parameter (`server`), so an operation states
the request it sends and what it makes of whatever reply comes back. A reply
is an abstract `Response`: its truthiness, status code, reason, raw body and
the decoder's outcome (`DecodeOk(fields)` or `DecodeFail(error)`). Python
objects that errors wrap or dump are seen through what the code asks of
them: `repr`, `str` and truthiness (`Exc.Obj`).

Modules: `Wrappers` (Option/Result/Outcome), `Text` (the Python string
operations the code relies on: `lower`/`upper`, `split`, `join`, `int()`,
`%d`, `%r` of a byte string), `Exc` (exc.py), `Http` (JSON values and
responses), `Zoho` (zoho.py), `Base` (base.py) and `ZohoExamples` (worked
cases proved of the model: a JSON and a `KEY=VALUE` token body, a refused
token, the REST outcome table of smapi/zoho.py:224-260, and scope and token
cases).

The model follows the code as written, including where it departs from what
its messages and flags suggest:

- A port that parses as an integer is accepted whatever its sign; `"0"` is
  stored as 0, which the `port` getter then reads as no port
  (`Base.ServiceUrlOfNewSmapi` states this).
- A token reply with `RESULT` equal to `TRUE` and no `AUTHTOKEN` gives `None`;
  it is not an error.
- A 200 reply without data raises only when exceptions are enabled; with them
  off, the empty data is returned.
- A failure status without data is logged with `throw_exception=True` inside
  the `try` block of `_call_zoho`, whose catch-all clause catches that error:
  `Zoho.CallZoho` follows this (see Findings), and `Zoho.CallZohoCorrected` is
  the call with the error reaching the caller.
- `call` sends GET when `use_post` is true and POST when it is false.

## Model

| member | source | states |
|---|---|---|
| `Exc.NewSMAPIError` | smapi/exc.py:19-32 | message, cause and dumped objects are recorded exactly as given, and `str(err)` is the message |
| `Exc.NewZohoError` | smapi/exc.py:108-134 | `http_response` is the explicit argument when truthy; else the dumped object named `http_response` when there is one; else the (falsy) argument |
| `Exc.Repr` | smapi/exc.py:74-85 | the repr is the fixed head, the message and a quote, then the `base_ex` part (`, base_ex="<str of cause>"`, present iff the cause is truthy), then the `dump_objs` part (`, dump_objs="` and the names joined by `", "`, present iff there are dumped objects), then `)>` |
| `Exc.ReprMessageRoundTrip` | smapi/exc.py:74-85 | without cause or dumped objects, the message is read back from between the fixed head and tail of the repr |
| `Exc.ReprCauseReadBack` | smapi/exc.py:74-78 | with a truthy cause, `, base_ex="` and the cause's `str` stand right after the quoted message in the repr |
| `Exc.ReprNamesReadBack` | smapi/exc.py:80-85 | with dumped objects, their names joined by `", "` stand right before the closing `")>` of the repr |
| `Exc.DumpObjects` | smapi/exc.py:52-69 | `None` iff there are no dumped objects; otherwise a list of lines starting with the begin line |
| `Exc.NoSeparatorEmitted` | smapi/exc.py:59-62 | the separator condition `cnt - index < 1` never holds inside the loop, so the rendering is the entries alone |
| `Exc.DumpObjectsLines` | smapi/exc.py:55-69 | with one-line names and reprs the result is exactly the begin line, a name line and a value line per object in the dictionary's iteration order (the order of the entries as given), and the end line (2n+2 lines); the 30-dash separator never appears |
| `Zoho.Log` | smapi/zoho.py:69-78 | raises iff `throw_exception`; a supplied exception takes precedence; otherwise a `ZohoError` carrying the message and the keyword arguments |
| `Zoho.Report` | smapi/zoho.py:94-95 | log-then-return-None: `None` iff exceptions are off, otherwise a `ZohoError` with the message, cause and response |
| `Zoho.GetScope` | smapi/zoho.py:152-169 | empty name gives the mail scope; a name shaped `Zoho\w+/\w+` is returned unchanged; any other is lower-cased and, when in the table, gives the table's scope for it; an unknown name raises with the lowered name, or gives `None` with exceptions off; every returned scope is shaped |
| `Zoho.GetScopeIdempotent` | smapi/zoho.py:152-169 | resolving a resolved scope returns it unchanged |
| `Zoho.ScopeShapedOf` | smapi/zoho.py:158-159 | `Zoho`, a non-empty word, a slash and a non-empty word make a scope the pattern accepts |
| `Zoho.ParseLine` | smapi/zoho.py:125 | a `#` line or a line without `=` gives nothing; otherwise the line is key, `=`, value with no `=` in the value (the key is greedy) |
| `Zoho.ParseLineOfPair` | smapi/zoho.py:125 | a line written as `key=value` (no `=` in the value, no leading `#`) is parsed back to that pair |
| `Zoho.CollectPairsKeys` | smapi/zoho.py:125 | a key is in the fallback map iff some line defines it |
| `Zoho.CollectPairsLastWins` | smapi/zoho.py:125 | a key maps to the value of the last line defining it |
| `Zoho.CollectPairsSkipsLine` | smapi/zoho.py:125 | comment lines and lines without `=` can be dropped without changing the map |
| `Zoho.CheckTokenFields` | smapi/zoho.py:118-123 | a token comes back iff `RESULT` is exactly `"TRUE"` and `AUTHTOKEN` is present; with `RESULT` accepted the result is `AUTHTOKEN` or `None`, never an error; otherwise an error iff exceptions are on, `Invalid AUTHTOKEN response` with the response attached |
| `Zoho.DecodeTokenBody` | smapi/zoho.py:111-136 | an empty field map from either tier is reported (with the decode error as cause on the text tier); otherwise both tiers apply the same `RESULT`/`AUTHTOKEN` check; every error it raises carries the response |
| `Zoho.FetchToken` | smapi/zoho.py:81-136 | a scope error propagates and an unresolved scope gives `None`; for a falsy reply or a status other than 200 no token comes back, and the call raises iff exceptions are on, with `No response from API token request` or `HTTP Error <code> (<reason>): <body>` and the response attached; a truthy 200 reply is decided by the body decoding; with exceptions off nothing raises; a token comes back only from a truthy 200 reply whose fields have `RESULT` = `"TRUE"`, and it is their `AUTHTOKEN` |
| `Zoho.BadStatusIgnoresBody` | smapi/zoho.py:106-109 | with a status other than 200 the outcome does not depend on what the decoder produced from the body (the raw body still appears in the error message), and no token comes back |
| `Zoho.FetchTokenSucceedsIff` | smapi/zoho.py:97-136 | a token is returned exactly when the scope resolves, the reply is truthy with status 200, and the decoded fields have `RESULT` = `"TRUE"` and that `AUTHTOKEN` |
| `Zoho.NewClient` | smapi/zoho.py:179-192 | a scope error comes first; a token matching `[a-z0-9]{32}` with no fetch asked is kept verbatim and the client is built; otherwise a missing e-mail id raises, a fetch error propagates, a falsy fetched token raises `No Zoho API Token Provided`, and a truthy one is the client's token |
| `Zoho.NewClientSucceedsIff` | smapi/zoho.py:179-192 | a client is built exactly when the scope resolves and its token is either the supplied one, usable as it is, or a truthy token the endpoint issues for the e-mail id |
| `Zoho.PrepareRestCall` | smapi/zoho.py:195-209 | a request is produced iff the upper-cased method is GET, POST, PUT or DELETE; it goes to the API base URI plus `/` plus the path with a `Zoho-authtoken` header |
| `Zoho.MethodCaseInsensitive` | smapi/zoho.py:195-196 | a method name and its upper-cased form make the same call |
| `Zoho.GeneralError` | smapi/zoho.py:252-255 | the catch-all clause returns nothing iff exceptions are off, else raises `General Error calling API: ...` with the cause and the response |
| `Zoho.ClassifyReply` | smapi/zoho.py:213-260 | corrected classification: data comes back iff a usable reply carries truthy data (and any failure status is an object); a warning comes with it iff the status is a failure; a failure status without data raises with the response attached, and with exceptions off that is the only error; a body the JSON decoder rejects raises `JSON Decoding Error: <error>` with the decode error and the response iff exceptions are on; with exceptions off an unusable reply gives nothing and a usable reply without failure status returns its data; with them on every normal return carries data |
| `Zoho.ClassifyReplyAsWritten` | smapi/zoho.py:213-260 | as written, with exceptions off no REST reply ever raises; it agrees with the corrected classification whenever that returns normally and on every body the decoder rejects, and with exceptions on it raises exactly when that does; with exceptions on, a falsy reply raises `General Error calling API: No HTTP response` |
| `Zoho.HardErrorSwallowedAsWritten` | smapi/zoho.py:226-255 | as written, the hard error for a failure status without data is swallowed with exceptions off and re-wrapped as a general error with them on |
| `Zoho.CallZoho` | smapi/zoho.py:194-260 | as written: an invalid method is reported before any request; otherwise one request with the upper-cased verb, the API URL and the token header, its reply classified as written; with exceptions off the call never raises, with them on every normal return carries data |
| `Zoho.CallZohoCorrected` | smapi/zoho.py:194-260 | the corrected call: the same request, its reply classified with the hard error reaching the caller; with exceptions on every normal return carries data |
| `Zoho.CallZohoAgreesWhenNormal` | smapi/zoho.py:194-260 | the call as written equals the corrected call whenever the corrected one returns normally, and with exceptions on both raise on the same calls |
| `ZohoExamples.JsonTokenBody` | smapi/zoho.py:111-123 | a JSON body with `RESULT` `TRUE` and `AUTHTOKEN` t gives t |
| `ZohoExamples.TextTokenBody` | smapi/zoho.py:124-136 | the body `RESULT=TRUE\nAUTHTOKEN=t` that JSON cannot decode gives the same t through the line parser |
| `ZohoExamples.RefusedTokenBody` | smapi/zoho.py:118-121 | `{"RESULT": "FALSE"}` raises with the response attached |
| `ZohoExamples.RestOutcomeTable` | smapi/zoho.py:224-260 | as written: (200, data) returns data; (500, data) returns data and a warning; (500, no data) raises `General Error calling API: HTTP Error from Zoho API: ...` with exceptions on and returns nothing with them off, where the corrected classification raises the hard error; (200, no data) raises with exceptions on |
| `ZohoExamples.TableScopeAnyCase` | smapi/zoho.py:161-169 | `CRM` resolves to the CRM scope |
| `ZohoExamples.ShapedScopeKept` | smapi/zoho.py:158-159 | `ZohoPeople/peopleapi` is kept as it is |
| `ZohoExamples.UnknownScope` | smapi/zoho.py:161-167 | `books` raises, or gives nothing with exceptions off |
| `ZohoExamples.TokenCases` | smapi/zoho.py:184-192 | a 32-character lower-case token is kept; a token of another shape, or a forced fetch, without an e-mail id fails |
| `ZohoExamples.TrailingLineFeedKept` | smapi/zoho.py:184 | `$` in `^[a-z0-9]{32}$` also matches before one final line feed, so a 32-character token followed by `\n` is shaped and kept verbatim, line feed included |
| `Base.NewSmapi` | smapi/base.py:31-50 | rejects a missing server, then user name, then password, each with its own message; a truthy port must parse as an integer; a falsy port is stored as none |
| `Base.GetOption` | smapi/base.py:52-62 | an unknown option is an error; a falsy stored value gives the default, or is an error without one; otherwise the stored value |
| `Base.PropertyDefaults` | smapi/base.py:64-82 | `use_ssl` defaults to False and `port` to None, so neither getter fails and a zero port reads as none; `server`, `username` and `password` fail exactly when empty, with the invalid-value message |
| `Base.ServiceUrl` | smapi/base.py:84-98 | a service outside the seven-name whitelist is rejected before any URL is built; the URL starts with `https://` iff `use_ssl` (else `http://`) and ends with `/Services/svc<S>.asmx/<M>` |
| `Base.ServiceUrlOfNewSmapi` | smapi/base.py:89-98 | for an accepted construction, the URL is scheme, host, `:<port>` only for a non-zero port, and the service suffix |
| `Base.PrepareCall` | smapi/base.py:100-106 | `use_post=True` sends GET and False sends POST; `AuthUserName`/`AuthPassword` are set to the credentials, overriding the caller's, and every other parameter is unchanged |
| `Base.Call` | smapi/base.py:100-113 | one request; the delivered body is returned; an `HTTPError` becomes an `SMAPIError` carrying it as the cause |
| `Text.IntToStringRoundTrip` | smapi/base.py:44-48 | `int()` reads back the decimal text of every integer, so a non-zero port given as a number or as its text is stored as the same integer (the number 0 is falsy and stored as none, while the text `"0"` is stored as 0) |
| `Text.SpaceAfterSign` | smapi/base.py:44-48 | `int()` accepts white space between the sign and the digits: `"+ 80"` reads as 80 |

## Left out

- Network I/O (`requests`, `closing`), JSON decoding by `simplejson` and the `Response` object are abstract: a reply is a `Response` record and the service a function parameter.
- Response truthiness (`if not resp`) is a field of the reply: it is library behaviour.
- `Zoho.FetchToken`, `Zoho.CallZoho` and `Base.Call`: transport exceptions (a connection error or timeout from `requests.get` at smapi/zoho.py:99, `requests.request` at smapi/zoho.py:213, or the request in `call` at smapi/base.py:109) are not modelled, because the service parameter always replies. They are raised outside the `try` blocks, or are not the `HTTPError` that `call` wraps, so they escape whatever `use_exceptions` says. "Never raises with exceptions off" is a statement about replies that arrive.
- Logging and printing (`logger.log`, `print >>` in `dump_objects`, the `print_objects` and `use_stderr` flags) are side effects and are not modelled; only returned values and messages are.
- The BeautifulSoup parse in `call` is not modelled: `Base.Call` returns the raw body.
- Class-level shared dictionaries (`ZohoAPI._options`, `ZohoError._options`, `SMAPI._options`) and the mutable default `params={}` of `call`: each instance has its own immutable record, and `call` builds a new map rather than updating the caller's.
- Python crash paths are replaced by the evident outcome: `SERVICES.keys()` on a list (the message lists the seven names), `message`/`base_ex`/`dump_objs` reading `_options` while `__init__` writes `_values` (the recorded values are read), `'http_response' in None` (treated as absent), and `RequestException`, never imported, read as the `requests` class.
- The `HTTPError` clause of `fetch_token` (smapi/zoho.py:137-142) and the `RequestException` clause of `_call_zoho` (smapi/zoho.py:245-251): nothing inside the modelled `try` blocks raises either.
- The lines after the `with` block of `fetch_token` (smapi/zoho.py:144-149) are unreachable and not modelled.
- `from_email_id` (smapi/zoho.py:171-177) and the `org_id` property are outside the modelled core.
- Python 2 dictionary iteration order: where a message joins dictionary keys (scope table, options), the model uses declaration order.
- `Zoho.CheckTokenFields`: the `Invalid AUTHTOKEN response` message keeps only its fixed prefix and omits the `%r` of the field dictionary, whose key order is hash order.
- `Http.Show` of a JSON array or object (used in REST messages and the authorization header) is a placeholder rather than Python's rendering of the elements.
- A dictionary (`Exc.Dict`) is a sequence of pairs whose keys are taken to be distinct; the model does not enforce this, and with a repeated key `Exc.Lookup` would give the first entry and the dumped names would repeat it.
- JSON numbers are integers; floats and a top-level JSON value that is not an object are not modelled.
- `Text.ParseInt` follows Python 2 `int()` on text (surrounding white space, an optional sign, white space after the sign, decimal digits); non-ASCII digits, and a port that is neither an integer nor text (a float, which `int()` truncates), are not modelled.
- `Text.PyRepr` renders characters as bytes below 256; wider characters are out of range for a Python 2 byte string.
- `smapi/cli.py`, `smapi/helpers.py`, `setup.py` and `smapi/__init__.py` are not part of this model (argument parsing, prompts, bs4 document traversal, packaging). The IMAP mailbox inventory has no source among the files modelled.
- Python's `None` for a string argument (server, user name, password, e-mail id, scope name) is the empty string. The code tests these for truthiness, except that `fetch_token` puts `email_id` and `password` into the query (smapi/zoho.py:97): there `requests` omits a `None` parameter but sends `EMAIL_ID=` for an empty one, a difference the model does not make.

## Findings

| source | as written | input that shows it | evidently intended | confidence | as-written member | corrected member |
|---|---|---|---|---|---|---|
| smapi/zoho.py:226-255 | the hard-error `_log(..., throw_exception=True)` runs inside the `try`; once `RequestException` (smapi/zoho.py:245, never imported) resolves to the `requests` class, the catch-all `except Exception` catches the `ZohoError` it raises (as the file stands, evaluating that unresolved name raises `NameError` first, which is not modelled): with `use_exceptions=False` the error is swallowed and `None` returned; with it true the error is re-raised as `General Error calling API: HTTP Error from Zoho API: ...` | a truthy reply decoding to `{"status": {"description": "x"}}` with status 500 and `use_exceptions=False` | a failure status without data raises the `HTTP Error from Zoho API` error with the response attached, whatever `use_exceptions` says | medium, not executed | `Zoho.HardErrorSwallowedAsWritten` | `Zoho.ClassifyReply` |

=== FILE: base.dfy ===
/** The SmarterMail web-service client (smapi/base.py): construction with
    its validation, option lookup with defaults, the service whitelist, the
    service URL and the authentication parameters added to every call.

    The web service is a parameter `server: AdminRequest -> Transport`; the
    model builds the request the code would send and returns the raw body
    the service gives back (parsing it into a document is not modelled).
 */
module Base {
  import opened Wrappers
  import opened Text
  import opened Exc

  /** The services a call may name, in the order the error message lists them. */
  const Services: seq<string> :=
    ["DomainAdmin", "UserAdmin", "ProductInfo", "DomainAliasAdmin", "MailListAdmin", "AliasAdmin", "GlobalUpdate"]

  /** The option names, in the order the error message lists them. */
  const OptionNames: seq<string> := ["server", "username", "password", "use_ssl", "port"]

  /** The `port` argument of the constructor: absent, an integer, or text. */
  datatype PortArg = NoPort | PortNum(n: int) | PortText(s: string)

  predicate PortTruthy(p: PortArg) {
    match p
    case NoPort => false
    case PortNum(n) => n != 0
    case PortText(s) => |s| > 0
  }

  /** `int(port)` for a port argument; `None` is the `ValueError` case. */
  function PortInt(p: PortArg): Option<int> {
    match p
    case NoPort => None
    case PortNum(n) => Some(n)
    case PortText(s) => ParseInt(s)
  }

  /** `'%s' % port`. */
  function PortText(p: PortArg): string {
    match p
    case NoPort => "None"
    case PortNum(n) => IntToString(n)
    case PortText(s) => s
  }

  /** A stored option value. */
  datatype OptionValue = OStr(s: string) | OBool(b: bool) | OInt(i: int) | ONone

  predicate OptionTruthy(v: OptionValue) {
    match v
    case OStr(s) => |s| > 0
    case OBool(b) => b
    case OInt(i) => i != 0
    case ONone => false
  }

  /** `'%s' % value`. */
  function ShowOption(v: OptionValue): string {
    match v
    case OStr(s) => s
    case OBool(b) => if b then "True" else "False"
    case OInt(i) => IntToString(i)
    case ONone => "None"
  }

  /** A constructed client. Python's `None` for server, user name and
      password is represented by the empty string: both are falsy. */
  datatype Smapi = Smapi(server: string, username: string, password: string, useSsl: bool, port: Option<int>)

  /** `SMAPI(server, username, password, use_ssl, port)`: server, user name
      and password must be truthy, checked in that order; a truthy port is
      stored as `int(port)` and must parse; a falsy port is stored as `None`. */
  function NewSmapi(server: string, username: string, password: string, useSsl: bool, port: PortArg): (r: Result<Smapi, Error>)
    ensures server == "" ==> r == Err(NewSMAPIError("No server hostname provided", None, None))
    ensures server != "" && username == "" ==> r == Err(NewSMAPIError("No username provided", None, None))
    ensures server != "" && username != "" && password == "" ==> r == Err(NewSMAPIError("No password provided", None, None))
    ensures r.Ok? <==> server != "" && username != "" && password != "" && (PortTruthy(port) ==> PortInt(port).Some?)
    ensures server != "" && username != "" && password != "" && PortTruthy(port) && PortInt(port).None? ==>
              r == Err(NewSMAPIError("Invalid port provided: \"" + PortText(port) + "\"", None, None))
    ensures r.Ok? ==>
              && r.value.server == server && r.value.username == username
              && r.value.password == password && r.value.useSsl == useSsl
              && r.value.port == (if PortTruthy(port) then PortInt(port) else None)
  {
    if server == "" then Err(NewSMAPIError("No server hostname provided", None, None))
    else if username == "" then Err(NewSMAPIError("No username provided", None, None))
    else if password == "" then Err(NewSMAPIError("No password provided", None, None))
    else if !PortTruthy(port) then Ok(Smapi(server, username, password, useSsl, None))
    else
      match PortInt(port)
      case None => Err(NewSMAPIError("Invalid port provided: \"" + PortText(port) + "\"", None, None))
      case Some(n) => Ok(Smapi(server, username, password, useSsl, Some(n)))
  }

  /** The option dictionary of a client. */
  function Options(c: Smapi): (opts: map<string, OptionValue>)
    ensures forall name :: name in opts <==> name in OptionNames
  {
    map[
      "server" := OStr(c.server),
      "username" := OStr(c.username),
      "password" := OStr(c.password),
      "use_ssl" := OBool(c.useSsl),
      "port" := if c.port.Some? then OInt(c.port.value) else ONone]
  }

  function MissingValueMessage(name: string): string {
    "Invalid value for option \"" + name + "\""
  }

  function InvalidOptionMessage(name: string): string {
    "Invalid option: \"" + name + "\". Must be one of \"" + Join("\", \"", OptionNames) + "\""
  }

  /** `_get_option(option, default=...)`: an unknown name is an error; a
      falsy stored value gives the default, or is an error without one;
      otherwise the stored value. */
  function GetOption(c: Smapi, name: string, default: Option<OptionValue>): (r: Result<OptionValue, Error>)
    ensures name !in OptionNames ==> r == Err(NewSMAPIError(InvalidOptionMessage(name), None, None))
    ensures name in OptionNames && !OptionTruthy(Options(c)[name]) && default.None? ==>
              r == Err(NewSMAPIError(MissingValueMessage(name), None, None))
    ensures r.Ok? ==> name in OptionNames
    ensures r.Ok? ==> r.value == (if OptionTruthy(Options(c)[name]) then Options(c)[name] else default.value)
    ensures r.Err? <==> name !in OptionNames || (!OptionTruthy(Options(c)[name]) && default.None?)
  {
    var opts := Options(c);
    if name !in opts then Err(NewSMAPIError(InvalidOptionMessage(name), None, None))
    else if !OptionTruthy(opts[name]) then
      if default.Some? then Ok(default.value)
      else Err(NewSMAPIError(MissingValueMessage(name), None, None))
    else Ok(opts[name])
  }

  function Server(c: Smapi): Result<OptionValue, Error> {
    GetOption(c, "server", None)
  }

  function Username(c: Smapi): Result<OptionValue, Error> {
    GetOption(c, "username", None)
  }

  function Password(c: Smapi): Result<OptionValue, Error> {
    GetOption(c, "password", None)
  }

  function UseSsl(c: Smapi): Result<OptionValue, Error> {
    GetOption(c, "use_ssl", Some(OBool(false)))
  }

  function Port(c: Smapi): Result<OptionValue, Error> {
    GetOption(c, "port", Some(ONone))
  }

  /** `use_ssl` defaults to False and `port` to None: neither getter fails,
      and a zero port reads as no port. The getters without a default fail
      exactly when their value is empty. */
  lemma PropertyDefaults(c: Smapi)
    ensures UseSsl(c) == Ok(OBool(c.useSsl))
    ensures Port(c) == Ok(if c.port.Some? && c.port.value != 0 then OInt(c.port.value) else ONone)
    ensures Server(c) == if c.server != "" then Ok(OStr(c.server)) else Err(NewSMAPIError(MissingValueMessage("server"), None, None))
    ensures Username(c) == if c.username != "" then Ok(OStr(c.username)) else Err(NewSMAPIError(MissingValueMessage("username"), None, None))
    ensures Password(c) == if c.password != "" then Ok(OStr(c.password)) else Err(NewSMAPIError(MissingValueMessage("password"), None, None))
  {
  }

  function InvalidServiceMessage(service: string): string {
    "Invalid service requested: \"" + service + "\". Must be one of: \"" + Join("\", \"", Services) + "\""
  }

  /** `_get_service_url(srv_name, method)`: a service outside the whitelist is
      rejected before any URL is built; otherwise the scheme (`https` when
      `use_ssl`), the server, `:<port>` when the port is truthy, and
      `/Services/svc<service>.asmx/<method>`. */
  function ServiceUrl(c: Smapi, service: string, operation: string): (r: Result<string, Error>)
    ensures service !in Services ==> r == Err(NewSMAPIError(InvalidServiceMessage(service), None, None))
    ensures service in Services ==> (r.Ok? <==> c.server != "")
    ensures r.Ok? ==>
              var suffix := "/Services/svc" + service + ".asmx/" + operation;
              && service in Services
              && |suffix| <= |r.value|
              && r.value[|r.value| - |suffix|..] == suffix
              && StartsWith(r.value, (if c.useSsl then "https" else "http") + "://")
  {
    if service !in Services then Err(NewSMAPIError(InvalidServiceMessage(service), None, None))
    else
      var server :- Server(c);
      // The `use_ssl` and `port` getters have defaults and never fail.
      PropertyDefaults(c);
      Ok(UrlOf(Scheme(UseSsl(c).value), ShowOption(server), PortPart(Port(c).value), service, operation))
  }

  /** `http`, or `https` when the `use_ssl` option is truthy. */
  function Scheme(ssl: OptionValue): string {
    if OptionTruthy(ssl) then "https" else "http"
  }

  /** `:<port>` for a truthy port option, which always holds an integer. */
  function PortPart(port: OptionValue): string {
    match port
    case OInt(n) => if n != 0 then ":" + IntToString(n) else ""
    case _ => ""
  }

  /** `scheme://host<port part>/Services/svc<service>.asmx/<method>`. */
  function UrlOf(scheme: string, host: string, portPart: string, service: string, operation: string): (url: string)
    ensures var suffix := "/Services/svc" + service + ".asmx/" + operation;
            && |suffix| <= |url|
            && url[|url| - |suffix|..] == suffix
            && StartsWith(url, scheme + "://")
  {
    var suffix := "/Services/svc" + service + ".asmx/" + operation;
    var url := scheme + "://" + host + portPart + "/Services/svc" + service + ".asmx/" + operation;
    assert url == scheme + "://" + host + portPart + suffix;
    assert url[|url| - |suffix|..] == suffix;
    assert StartsWith(url, scheme + "://");
    url
  }

  /** The `:<port>` part of the URL for the constructor's port argument. */
  function PortSegment(port: PortArg): string {
    if PortTruthy(port) && PortInt(port).Some? && PortInt(port).value != 0
    then ":" + IntToString(PortInt(port).value)
    else ""
  }

  /** For a client the constructor accepted, the service URL in terms of the
      constructor's arguments: the port text `"0"` is accepted but, being
      stored as the falsy 0, never appears in a URL. */
  lemma ServiceUrlOfNewSmapi(server: string, username: string, password: string, useSsl: bool, port: PortArg,
                             service: string, operation: string)
    requires NewSmapi(server, username, password, useSsl, port).Ok?
    ensures var c := NewSmapi(server, username, password, useSsl, port).value;
            ServiceUrl(c, service, operation)
              == if service in Services
                 then Ok((if useSsl then "https" else "http") + "://" + server + PortSegment(port)
                         + "/Services/svc" + service + ".asmx/" + operation)
                 else Err(NewSMAPIError(InvalidServiceMessage(service), None, None))
  {
    var c := NewSmapi(server, username, password, useSsl, port).value;
    PropertyDefaults(c);
    assert Server(c) == Ok(OStr(server));
    assert PortPart(Port(c).value) == PortSegment(port);
  }

  /** A request parameter value: one string or a repeated parameter. */
  datatype Param = PStr(s: string) | PList(items: seq<string>)

  /** A request to the web service. */
  datatype AdminRequest = AdminRequest(verb: string, url: string, params: map<string, Param>)

  /** The request part of `call(srv_name, method, params, use_post=...)`: the
      verb mapping is inverted as written (`use_post=True` sends GET), and
      the credentials are set as `AuthUserName` and `AuthPassword`,
      replacing any caller values under those keys and leaving the other
      parameters as they are. */
  function PrepareCall(c: Smapi, service: string, operation: string, params: map<string, Param>,
                       usePost: bool): (r: Result<AdminRequest, Error>)
    ensures service !in Services ==> r == Err(NewSMAPIError(InvalidServiceMessage(service), None, None))
    ensures r.Ok? <==> service in Services && c.server != "" && c.username != "" && c.password != ""
    ensures r.Ok? ==>
              && r.value.verb == (if usePost then "GET" else "POST")
              && ServiceUrl(c, service, operation) == Ok(r.value.url)
              && r.value.params.Keys == params.Keys + {"AuthUserName", "AuthPassword"}
              && r.value.params["AuthUserName"] == PStr(c.username)
              && r.value.params["AuthPassword"] == PStr(c.password)
              && forall k :: k in params && k != "AuthUserName" && k != "AuthPassword" ==> r.value.params[k] == params[k]
  {
    PropertyDefaults(c);
    var verb := if usePost then "GET" else "POST";
    var url :- ServiceUrl(c, service, operation);
    var user :- Username(c);
    var pass :- Password(c);
    Ok(AdminRequest(verb, url, WithCredentials(params, ShowOption(user), ShowOption(pass))))
  }

  /** `params.update({'AuthUserName': ..., 'AuthPassword': ...})`. */
  function WithCredentials(params: map<string, Param>, user: string, pass: string): (r: map<string, Param>)
    ensures r.Keys == params.Keys + {"AuthUserName", "AuthPassword"}
    ensures r["AuthUserName"] == PStr(user) && r["AuthPassword"] == PStr(pass)
    ensures forall k :: k in params && k != "AuthUserName" && k != "AuthPassword" ==> r[k] == params[k]
  {
    params["AuthUserName" := PStr(user)]["AuthPassword" := PStr(pass)]
  }

  /** What the transport gives back: the body, or the `HTTPError` raised. */
  datatype Transport = Delivered(content: string) | HttpError(ex: Obj)

  /** `call(...)`, the web service being `server`: exactly one request; an
      `HTTPError` is wrapped as an `SMAPIError` carrying it as the cause. */
  function Call(c: Smapi, service: string, operation: string, params: map<string, Param>, usePost: bool,
                server: AdminRequest -> Transport): (r: Result<string, Error>)
    ensures service !in Services ==> r == Err(NewSMAPIError(InvalidServiceMessage(service), None, None))
    ensures r.Ok? ==> PrepareCall(c, service, operation, params, usePost).Ok?
                      && server(PrepareCall(c, service, operation, params, usePost).value)
                         == Delivered(r.value)
    ensures PrepareCall(c, service, operation, params, usePost).Ok? ==>
              match server(PrepareCall(c, service, operation, params, usePost).value)
              case Delivered(content) => r == Ok(content)
              case HttpError(ex) =>
                r == Err(NewSMAPIError("Error calling service: \"" + ex.text + "\"", Some(ex), None))
  {
    var req :- PrepareCall(c, service, operation, params, usePost);
    match server(req)
    case Delivered(content) => Ok(content)
    case HttpError(ex) => Err(NewSMAPIError("Error calling service: \"" + ex.text + "\"", Some(ex), None))
  }
}

=== FILE: examples_zoho.dfy ===
/** Worked cases of the Zoho client: a JSON and a `KEY=VALUE` token body, a
    refused token, the REST outcome table and the scope and token shapes. */
module ZohoExamples {
  import opened Wrappers
  import opened Text
  import opened Exc
  import opened Http
  import opened Zoho

  const Token32 := "0123456789abcdef0123456789abcdef"

  function Reply200(body: Decoded, content: string): Response {
    Response(true, 200, "OK", content, body, "<Response [200]>")
  }

  /** A JSON body `{"RESULT": "TRUE", "AUTHTOKEN": t}` yields `t`. */
  lemma JsonTokenBody(t: string)
    ensures var resp := Reply200(DecodeOk(map["RESULT" := JStr("TRUE"), "AUTHTOKEN" := JStr(t)]), "");
            FetchToken("user@example.com", "secret", true, "", q => resp) == Ok(Some(JStr(t)))
  {
  }

  const LegacyHead := "RESULT=TRUE"
  const LegacyKey := "AUTHTOKEN"

  function LegacyBody(t: string): string {
    LegacyHead + ['\n'] + (LegacyKey + ['='] + t)
  }

  lemma LegacyLines(t: string)
    requires '\n' !in t
    ensures Split(LegacyBody(t), '\n') == [LegacyHead, LegacyKey + ['='] + t]
  {
    SplitAppend(LegacyHead, '\n', LegacyKey + ['='] + t);
    SplitNoSep(LegacyKey + ['='] + t, '\n');
  }

  lemma LegacyPairs(t: string)
    requires '=' !in t
    ensures CollectPairs([LegacyHead, LegacyKey + ['='] + t]) == map["RESULT" := "TRUE", "AUTHTOKEN" := t]
  {
    var second := LegacyKey + ['='] + t;
    var lines := [LegacyHead, second];
    ParseLineOfPair("RESULT", "TRUE");
    ParseLineOfPair("AUTHTOKEN", t);
    assert "RESULT" + "=" + "TRUE" == LegacyHead;
    assert "AUTHTOKEN" + "=" + t == second;
    var first := Extend(map[], LegacyHead);
    assert first == map["RESULT" := "TRUE"];
    assert lines[..1] == [LegacyHead] && lines[1] == second;
    assert CollectPairs([LegacyHead]) == first by {
      assert [LegacyHead][..0] == [];
    }
    assert CollectPairs(lines) == Extend(first, second);
  }

  /** The legacy body `RESULT=TRUE\nAUTHTOKEN=t` yields the same token
      through the fallback decoder. */
  lemma TextTokenBody(resp: Response, t: string, ue: bool)
    requires resp.body.DecodeFail? && resp.content == LegacyBody(t)
    requires '\n' !in t && '=' !in t
    ensures DecodeTokenBody(resp, ue) == Ok(Some(JStr(t)))
  {
    LegacyFields(t);
    var fields := BodyFields(resp);
    assert |fields| > 0 by {
      assert "RESULT" in fields;
    }
    assert CheckTokenFields(fields, resp, ue) == Ok(Some(JStr(t)));
  }

  lemma LegacyFields(t: string)
    requires '\n' !in t && '=' !in t
    ensures var fields := TextFields(LegacyBody(t));
            && "RESULT" in fields && fields["RESULT"] == JStr("TRUE")
            && "AUTHTOKEN" in fields && fields["AUTHTOKEN"] == JStr(t)
  {
    LegacyLines(t);
    LegacyPairs(t);
  }

  /** `{"RESULT": "FALSE"}` is refused, raising with the response attached. */
  lemma RefusedTokenBody()
    ensures var resp := Reply200(DecodeOk(map["RESULT" := JStr("FALSE")]), "");
            var r := FetchToken("user@example.com", "secret", true, "", q => resp);
            r.Err? && r.error.message == InvalidTokenResponse && r.error.httpResponse == Some(ResponseObj(resp))
  {
  }

  function RestReply(code: int, fields: map<string, Json>): Response {
    Response(true, code, if code == 200 then "OK" else "Internal Server Error", "", DecodeOk(fields), "<Response>")
  }

  const FailureStatusObject := JObject(map["description" := JStr("Server error")])

  /** The REST outcome table, as the code is written: data with a 200 is
      returned; data with a 500 and a status object is returned with a
      warning; a 500 with a status object and no data raises a re-wrapped
      general error with exceptions on and returns nothing with them off,
      where the corrected classification raises the hard error in both
      cases; no data with a 200 raises when exceptions are on. */
  lemma RestOutcomeTable(x: Json)
    requires JsonTruthy(x)
    ensures ClassifyReplyAsWritten(RestReply(200, map["status" := JObject(map["code" := JNum(200)]), "data" := x]), true)
            == Ok(Reply(Some(x), None))
    ensures var r := ClassifyReplyAsWritten(RestReply(500, map["status" := FailureStatusObject, "data" := x]), true);
            r.Ok? && r.value.data == Some(x) && r.value.warning.Some?
    ensures var r := ClassifyReplyAsWritten(RestReply(500, map["status" := FailureStatusObject]), true);
            r.Err? && StartsWith(r.error.message, GeneralPrefix + HardPrefix)
    ensures ClassifyReplyAsWritten(RestReply(500, map["status" := FailureStatusObject]), false) == Ok(Reply(None, None))
    ensures var r := ClassifyReply(RestReply(500, map["status" := FailureStatusObject]), false);
            r.Err? && StartsWith(r.error.message, HardPrefix)
    ensures ClassifyReplyAsWritten(RestReply(200, map["status" := JObject(map["code" := JNum(200)])]), true).Err?
  {
    var failing := RestReply(500, map["status" := FailureStatusObject]);
    assert Get(failing.body.fields, "data").None?;
    HardErrorSwallowedAsWritten(failing);
  }

  /** A table name is found whatever its case. */
  lemma TableScopeAnyCase()
    ensures GetScope("CRM", true) == Ok(Some(CrmScope))
  {
    assert |"CRM"| < 7;
    assert ToLower("CRM") == "crm";
  }

  const PeopleScope := "Zoho" + "People" + "/" + "peopleapi"

  /** A name already shaped like a scope (`ZohoPeople/peopleapi`) is kept
      as it is. */
  lemma ShapedScopeKept()
    ensures GetScope(PeopleScope, true) == Ok(Some(PeopleScope))
  {
    assert AllWordChars("People") && AllWordChars("peopleapi");
    ScopeShapedOf("People", "peopleapi");
  }

  /** An unknown name raises, or gives nothing when exceptions are off. */
  lemma UnknownScope(ue: bool)
    ensures ue ==> GetScope("books", ue).Err?
    ensures !ue ==> GetScope("books", ue) == Ok(None)
  {
    assert "books"[|"books"| - 1] != '\n' && |"books"| < 7;
    assert ToLower("books") == "books";
  }

  lemma Token32Shaped()
    ensures TokenShaped(Token32)
  {
  }

  /** `$` also matches before one final line feed, so a token followed by
      `\n` is shaped too and is kept verbatim, line feed included. */
  lemma TrailingLineFeedKept(server: Request -> Response)
    ensures TokenShaped(Token32 + "\n")
    ensures NewClient(Token32 + "\n", "", "", false, server) == Ok(ZohoClient("", JStr(Token32 + "\n"), Some(MailScope)))
  {
    var t := Token32 + "\n";
    assert |t| == 33 && t[32] == '\n';
    assert forall i :: 0 <= i < 32 ==> t[i] == Token32[i];
    Token32Shaped();
  }

  /** A 32-character lower-case token is used as it is; a token of another
      shape must be fetched, and without an account that fails. */
  lemma TokenCases(server: Request -> Response)
    ensures NewClient(Token32, "", "", false, server) == Ok(ZohoClient("", JStr(Token32), Some(MailScope)))
    ensures NewClient("abc123", "", "", false, server).Err?
    ensures NewClient(Token32, "", "", true, server).Err?
  {
    Token32Shaped();
  }
}

=== FILE: exc.dfy ===
/** The error values raised by both clients (smapi/exc.py).

    An `SMAPIError` carries a human-readable message, an optional wrapped
    cause (`base_ex`) and optional dumped objects (`dump_objs`, a dictionary
    of named diagnostic objects). A `ZohoError` adds the HTTP response of the
    failed call, falling back to the dumped object named `http_response`.

    Arbitrary Python objects (causes, responses, dumped values) are seen only
    through the three things the code asks of them: their `repr`, their `str`
    and their truthiness.
 */
module Exc {
  import opened Wrappers
  import opened Text

  /** A Python object as the error code sees it. */
  datatype Obj = Obj(repr: string, text: string, truthy: bool)

  /** A Python dictionary in its iteration order: (key, value) pairs. Keys
      are taken to be distinct, as in a dictionary; nothing here enforces it. */
  type Dict = seq<(string, Obj)>

  datatype Error =
    | SMAPIError(message: string, baseEx: Option<Obj>, dumpObjs: Option<Dict>)
    | ZohoError(message: string, baseEx: Option<Obj>, dumpObjs: Option<Dict>, httpResponse: Option<Obj>)

  /** Python truthiness of an optional object (`None` is false). */
  predicate Truthy(o: Option<Obj>) {
    o.Some? && o.value.truthy
  }

  /** Python truthiness of an optional dictionary: present and non-empty. */
  predicate HasEntries(d: Option<Dict>) {
    d.Some? && |d.value| > 0
  }

  function Keys(d: Dict): (ks: seq<string>)
    ensures |ks| == |d|
    ensures forall i :: 0 <= i < |d| ==> ks[i] == d[i].0
  {
    if |d| == 0 then [] else [d[0].0] + Keys(d[1..])
  }

  /** `d[k]` when `k in d`. */
  function Lookup(d: Dict, k: string): (r: Option<Obj>)
    ensures r.Some? <==> k in Keys(d)
    ensures r.Some? ==> exists i :: 0 <= i < |d| && d[i] == (k, r.value)
  {
    if |d| == 0 then None
    else if d[0].0 == k then Some(d[0].1)
    else
      var r := Lookup(d[1..], k);
      assert Keys(d) == [d[0].0] + Keys(d[1..]);
      assert r.Some? ==> exists i :: 0 <= i < |d| && d[i] == (k, r.value) by {
        if r.Some? {
          var i :| 0 <= i < |d[1..]| && d[1..][i] == (k, r.value);
          assert d[i + 1] == (k, r.value);
        }
      }
      r
  }

  // ---------------------------------------------------------------------------
  // Construction
  // ---------------------------------------------------------------------------

  /** `SMAPIError(message, base_ex, dump_objs)`: all three are recorded as
      given, and `str(err)` is the message. */
  function NewSMAPIError(message: string, baseEx: Option<Obj>, dumpObjs: Option<Dict>): (e: Error)
    ensures e.SMAPIError?
    ensures e.message == message && e.baseEx == baseEx && e.dumpObjs == dumpObjs
    ensures Str(e) == message
  {
    SMAPIError(message, baseEx, dumpObjs)
  }

  /** `ZohoError(message, base_ex, dump_objs, http_response)`: the explicit
      response when it is truthy, otherwise the dumped object of that name
      when there is one, otherwise the (falsy) explicit argument. */
  function NewZohoError(message: string, baseEx: Option<Obj>, dumpObjs: Option<Dict>, httpResponse: Option<Obj>): (e: Error)
    ensures e.ZohoError?
    ensures e.message == message && e.baseEx == baseEx && e.dumpObjs == dumpObjs
    ensures Str(e) == message
    ensures Truthy(httpResponse) ==> e.httpResponse == httpResponse
    ensures !Truthy(httpResponse) && dumpObjs.Some? && "http_response" in Keys(dumpObjs.value) ==>
              e.httpResponse.Some? && exists i :: 0 <= i < |dumpObjs.value| && dumpObjs.value[i] == ("http_response", e.httpResponse.value)
    ensures !Truthy(httpResponse) && (dumpObjs.None? || "http_response" !in Keys(dumpObjs.value)) ==>
              e.httpResponse == httpResponse
  {
    var response :=
      if !Truthy(httpResponse) && dumpObjs.Some? && Lookup(dumpObjs.value, "http_response").Some?
      then Lookup(dumpObjs.value, "http_response")
      else httpResponse;
    ZohoError(message, baseEx, dumpObjs, response)
  }

  /** `str(err)`. */
  function Str(e: Error): string {
    e.message
  }

  /** How an error looks when it is itself wrapped as another error's cause. */
  function AsObj(e: Error): (o: Obj)
    ensures o.truthy && o.text == e.message
  {
    Obj(Repr(e), Str(e), true)
  }

  // ---------------------------------------------------------------------------
  // repr
  // ---------------------------------------------------------------------------

  const ReprHead := "<SMAPIError(message=\""
  const BaseExHead := ", base_ex=\""
  const DumpObjsHead := ", dump_objs=\""
  const KeySeparator := "\", \""

  /** The `base_ex="..."` part: `str` of a truthy cause between quotes, or
      nothing. */
  function BaseExPart(e: Error): (r: string)
    ensures !Truthy(e.baseEx) ==> r == ""
    ensures Truthy(e.baseEx) ==>
              && |r| == |BaseExHead| + |e.baseEx.value.text| + 1
              && r[..|BaseExHead|] == BaseExHead
              && r[|BaseExHead|..|r| - 1] == e.baseEx.value.text
              && r[|r| - 1] == '"'
  {
    if Truthy(e.baseEx) then
      var r := BaseExHead + e.baseEx.value.text + "\"";
      assert r[..|BaseExHead|] == BaseExHead;
      assert r[|BaseExHead|..|r| - 1] == e.baseEx.value.text;
      r
    else ""
  }

  /** `'", "'.join(dump_objs.keys())`. */
  function DumpedNames(d: Dict): string {
    Join(KeySeparator, Keys(d))
  }

  /** The `dump_objs="..."` part: the dumped names joined by `", "` between
      quotes, or nothing. */
  function DumpObjsPart(e: Error): (r: string)
    ensures !HasEntries(e.dumpObjs) ==> r == ""
    ensures HasEntries(e.dumpObjs) ==>
              var names := DumpedNames(e.dumpObjs.value);
              && |r| == |DumpObjsHead| + |names| + 1
              && r[..|DumpObjsHead|] == DumpObjsHead
              && r[|DumpObjsHead|..|r| - 1] == names
              && r[|r| - 1] == '"'
  {
    if HasEntries(e.dumpObjs) then
      var names := DumpedNames(e.dumpObjs.value);
      var r := DumpObjsHead + names + "\"";
      assert r[..|DumpObjsHead|] == DumpObjsHead;
      assert r[|DumpObjsHead|..|r| - 1] == names;
      r
    else ""
  }

  /** `repr(err)` (the same text for a `ZohoError`): the quoted message, then
      the cause part, then the dumped-names part, then `)>`. */
  function Repr(e: Error): (r: string)
    ensures |r| == |ReprHead| + |e.message| + 3 + |BaseExPart(e)| + |DumpObjsPart(e)|
    ensures r[..|ReprHead| + |e.message| + 1] == ReprHead + e.message + "\""
    ensures r[|ReprHead| + |e.message| + 1..|r| - 2] == BaseExPart(e) + DumpObjsPart(e)
    ensures r[|r| - 2 - |DumpObjsPart(e)|..|r| - 2] == DumpObjsPart(e)
    ensures r[|r| - 2..] == ")>"
  {
    var head := ReprHead + e.message + "\"";
    var r := head + BaseExPart(e) + DumpObjsPart(e) + ")>";
    ConcatWindows(head, BaseExPart(e), DumpObjsPart(e), ")>");
    r
  }

  /** The pieces of `head + b + d + tail` stand where they were put. */
  lemma ConcatWindows(head: string, b: string, d: string, tail: string)
    ensures var r := head + b + d + tail;
            && r[..|head|] == head
            && r[|head|..|r| - |tail|] == b + d
            && r[|r| - |tail| - |d|..|r| - |tail|] == d
            && r[|r| - |tail|..] == tail
  {
    var r := head + b + d + tail;
    assert r[|head|..|r| - |tail|] == b + d by {
      forall i | 0 <= i < |b| + |d|
        ensures r[|head| + i] == (b + d)[i]
      {
      }
    }
    assert r[|r| - |tail| - |d|..|r| - |tail|] == d by {
      forall i | 0 <= i < |d|
        ensures r[|r| - |tail| - |d| + i] == d[i]
      {
      }
    }
  }

  /** Without a cause or dumped objects, the message is read back from
      between the fixed head and tail of the repr. */
  lemma ReprMessageRoundTrip(e: Error)
    requires !Truthy(e.baseEx) && !HasEntries(e.dumpObjs)
    ensures Repr(e)[|ReprHead|..|Repr(e)| - 3] == e.message
  {
    var r := Repr(e);
    assert r == ReprHead + e.message + "\")>";
  }

  /** `t` appears in `r` starting at position `at`. */
  predicate StandsAt(r: string, t: string, at: int) {
    0 <= at && at + |t| <= |r| && r[at..at + |t|] == t
  }

  /** A truthy cause's `str` is read back from the repr, right after the
      quoted message and `, base_ex="`. */
  lemma ReprCauseReadBack(e: Error)
    requires Truthy(e.baseEx)
    ensures var at := |ReprHead| + |e.message| + 1;
            && StandsAt(Repr(e), BaseExHead, at)
            && StandsAt(Repr(e), e.baseEx.value.text, at + |BaseExHead|)
  {
    FrontWindow(Repr(e), |ReprHead| + |e.message| + 1, BaseExPart(e), DumpObjsPart(e), BaseExHead, e.baseEx.value.text);
  }

  /** The dumped names, joined by `", "`, are read back from the repr, right
      before the closing `")>`. */
  lemma ReprNamesReadBack(e: Error)
    requires HasEntries(e.dumpObjs)
    ensures var r := Repr(e);
            var names := DumpedNames(e.dumpObjs.value);
            && StandsAt(r, names, |r| - 3 - |names|)
            && StandsAt(r, ['"'], |r| - 3)
  {
    BackWindow(Repr(e), DumpObjsPart(e), DumpObjsHead, DumpedNames(e.dumpObjs.value));
  }

  /** Where `r[at..|r| - 2]` is `b + d` and `b` is `h`, `t` and one more
      character, `h` and `t` stand at `at` in `r`. */
  lemma FrontWindow(r: string, at: nat, b: string, d: string, h: string, t: string)
    requires at <= |r| - 2 && r[at..|r| - 2] == b + d
    requires |b| == |h| + |t| + 1 && b[..|h|] == h && b[|h|..|b| - 1] == t
    ensures StandsAt(r, h, at) && StandsAt(r, t, at + |h|)
  {
    forall i | 0 <= i < |h|
      ensures r[at + i] == h[i]
    {
      assert r[at..|r| - 2][i] == (b + d)[i] == b[..|h|][i];
    }
    forall i | 0 <= i < |t|
      ensures r[at + |h| + i] == t[i]
    {
      assert r[at..|r| - 2][|h| + i] == (b + d)[|h| + i] == b[|h|..|b| - 1][i];
    }
  }

  /** Where `d` ends `r` just before its last two characters and `d` is
      `h`, `t` and a quote, `t` and the quote stand there too. */
  lemma BackWindow(r: string, d: string, h: string, t: string)
    requires |d| + 2 <= |r| && r[|r| - 2 - |d|..|r| - 2] == d
    requires |d| == |h| + |t| + 1 && d[|h|..|d| - 1] == t && d[|d| - 1] == '"'
    ensures StandsAt(r, t, |r| - 3 - |t|) && StandsAt(r, ['"'], |r| - 3)
  {
    var off := |r| - 2 - |d| + |h|;
    forall i | 0 <= i < |t|
      ensures r[off + i] == t[i]
    {
      assert r[|r| - 2 - |d|..|r| - 2][|h| + i] == d[|h| + i] == d[|h|..|d| - 1][i];
    }
    assert r[|r| - 2 - |d|..|r| - 2][|d| - 1] == d[|d| - 1];
  }

  // ---------------------------------------------------------------------------
  // dump_objects
  // ---------------------------------------------------------------------------

  const BeginLine := "--- Begin Dumped Objects ---"
  const EndLine := "--- End Dumped Objects ---"
  const Separator := "------------------------------"

  /** One dumped object as appended by the loop body. */
  function EntryText(name: string, o: Obj): string {
    NameLine(name) + "\n" + ValueLine(o) + "\n"
  }

  function NameLine(name: string): string {
    " -> Object: \"" + name + "\":"
  }

  function ValueLine(o: Obj): string {
    "\t" + o.repr
  }

  /** The loop over the dumped objects as written: `index` is the position of
      the current name and `cnt` the number of objects; the separator line is
      appended only when `cnt - index < 1`. */
  function EntriesText(d: Dict, cnt: int, index: int): string {
    if |d| == 0 then ""
    else
      EntryText(d[0].0, d[0].1)
      + (if cnt - index < 1 then Separator + "\n" else "")
      + EntriesText(d[1..], cnt, index + 1)
  }

  /** `err.dump_objects()`: `None` without dumped objects, else the lines of
      the rendering, the first of which is the begin line. */
  function DumpObjects(e: Error): (r: Option<seq<string>>)
    ensures r.None? <==> !HasEntries(e.dumpObjs)
    ensures r.Some? ==> |r.value| >= 1 && r.value[0] == BeginLine
  {
    if !HasEntries(e.dumpObjs) then None
    else
      var d := e.dumpObjs.value;
      var rest := EntriesText(d, |d|, 0) + EndLine;
      assert BeginLine + "\n" + EntriesText(d, |d|, 0) + EndLine == BeginLine + ['\n'] + rest;
      SplitAppend(BeginLine, '\n', rest);
      Some(Split(BeginLine + "\n" + EntriesText(d, |d|, 0) + EndLine, '\n'))
  }

  /** The lines of the dumped objects: a name line and a value line each. */
  function EntryLines(d: Dict): (lines: seq<string>)
    ensures |lines| == 2 * |d|
  {
    if |d| == 0 then []
    else [NameLine(d[0].0), ValueLine(d[0].1)] + EntryLines(d[1..])
  }

  predicate SingleLineEntries(d: Dict) {
    forall i :: 0 <= i < |d| ==> '\n' !in d[i].0 && '\n' !in d[i].1.repr
  }

  /** The separator condition never holds while the loop runs
      (`index < cnt`), so the rendering is the entries alone. */
  lemma {:induction false} NoSeparatorEmitted(d: Dict, index: nat)
    ensures EntriesText(d, index + |d|, index) == PlainEntries(d)
  {
    if |d| > 0 {
      NoSeparatorEmitted(d[1..], index + 1);
    }
  }

  function PlainEntries(d: Dict): string {
    if |d| == 0 then "" else EntryText(d[0].0, d[0].1) + PlainEntries(d[1..])
  }

  lemma {:induction false} SplitPlainEntries(d: Dict, tail: string)
    requires SingleLineEntries(d)
    ensures Split(PlainEntries(d) + tail, '\n') == EntryLines(d) + Split(tail, '\n')
  {
    if |d| > 0 {
      var name, value := NameLine(d[0].0), ValueLine(d[0].1);
      SingleLine(d[0].0, d[0].1);
      var rest := PlainEntries(d[1..]) + tail;
      EntryTextAssoc(name, value, PlainEntries(d[1..]), tail);
      SplitAppend(name, '\n', value + ['\n'] + rest);
      SplitAppend(value, '\n', rest);
      SplitPlainEntries(d[1..], tail);
    } else {
      assert PlainEntries(d) + tail == tail;
    }
  }

  lemma SingleLine(name: string, o: Obj)
    requires '\n' !in name && '\n' !in o.repr
    ensures '\n' !in NameLine(name) && '\n' !in ValueLine(o)
  {
  }

  lemma EntryTextAssoc(name: string, value: string, more: string, tail: string)
    ensures name + "\n" + value + "\n" + more + tail == name + ['\n'] + (value + ['\n'] + (more + tail))
  {
  }

  /** With one-line names and reprs, `dump_objects()` is exactly the begin
      line, two lines per object in the dictionary's iteration order (the
      order of the entries), and the end line; the 30-dash separator never
      appears. */
  lemma DumpObjectsLines(e: Error)
    requires HasEntries(e.dumpObjs) && SingleLineEntries(e.dumpObjs.value)
    ensures DumpObjects(e) == Some([BeginLine] + EntryLines(e.dumpObjs.value) + [EndLine])
    ensures |DumpObjects(e).value| == 2 * |e.dumpObjs.value| + 2
    ensures Separator !in DumpObjects(e).value
  {
    var d := e.dumpObjs.value;
    NoSeparatorEmitted(d, 0);
    assert '\n' !in BeginLine && '\n' !in EndLine;
    LinesOf(BeginLine, d, EndLine);
    EntryLinesNotSeparator(d);
  }

  lemma LinesOf(head: string, d: Dict, tail: string)
    requires '\n' !in head && '\n' !in tail && SingleLineEntries(d)
    ensures Split(head + "\n" + PlainEntries(d) + tail, '\n') == [head] + EntryLines(d) + [tail]
  {
    var body := PlainEntries(d);
    assert head + "\n" + body + tail == head + ['\n'] + (body + tail);
    SplitAppend(head, '\n', body + tail);
    SplitPlainEntries(d, tail);
    SplitNoSep(tail, '\n');
    assert Split(head + "\n" + body + tail, '\n') == [head] + (EntryLines(d) + [tail]);
  }

  lemma {:induction false} EntryLinesNotSeparator(d: Dict)
    ensures Separator !in EntryLines(d)
  {
    if |d| > 0 {
      EntryLinesNotSeparator(d[1..]);
      assert NameLine(d[0].0)[0] == ' ';
      assert ValueLine(d[0].1)[0] == '\t';
    }
  }
}

=== FILE: http.dfy ===
/** The HTTP exchange as the Zoho client sees it.

    No request is ever sent by the model: a reply is an abstract value
    holding what the code reads from the `requests` response object, and the
    JSON decoder's outcome is part of that value.
 */
module Http {
  import opened Wrappers
  import opened Text
  import opened Exc

  /** A decoded JSON value (numbers are integers here). */
  datatype Json =
    | JNull
    | JBool(b: bool)
    | JNum(n: int)
    | JStr(s: string)
    | JArray(items: seq<Json>)
    | JObject(fields: map<string, Json>)

  /** Python truthiness of a decoded value. */
  predicate JsonTruthy(j: Json) {
    match j
    case JNull => false
    case JBool(b) => b
    case JNum(n) => n != 0
    case JStr(s) => |s| > 0
    case JArray(items) => |items| > 0
    case JObject(fields) => |fields| > 0
  }

  /** Python truthiness of `d.get(key, None)`. */
  predicate PresentAndTruthy(o: Option<Json>) {
    o.Some? && JsonTruthy(o.value)
  }

  /** `'%s' % v` for a decoded value. Arrays and objects are shown by a
      placeholder: Python would print their elements in dictionary order. */
  function Show(j: Json): string {
    match j
    case JNull => "None"
    case JBool(b) => if b then "True" else "False"
    case JNum(n) => IntToString(n)
    case JStr(s) => s
    case JArray(_) => "[...]"
    case JObject(_) => "{...}"
  }

  /** The Python type name of a decoded value. */
  function TypeName(j: Json): string {
    match j
    case JNull => "NoneType"
    case JBool(_) => "bool"
    case JNum(_) => "int"
    case JStr(_) => "unicode"
    case JArray(_) => "list"
    case JObject(_) => "dict"
  }

  /** `d.get(key, None)`. */
  function Get(fields: map<string, Json>, key: string): (r: Option<Json>)
    ensures r.Some? <==> key in fields
    ensures r.Some? ==> r.value == fields[key]
  {
    if key in fields then Some(fields[key]) else None
  }

  /** The outcome of `resp.json()`: a JSON object, or the `JSONDecodeError`
      raised by the decoder. */
  datatype Decoded = DecodeOk(fields: map<string, Json>) | DecodeFail(error: Obj)

  /** A `requests` response: its truthiness (`bool(resp)`, decided by the
      library), status code, reason phrase, raw body, decoded body and
      `repr`. */
  datatype Response = Response(
    truthy: bool,
    statusCode: int,
    reason: string,
    content: string,
    body: Decoded,
    repr: string)

  /** The response when it is attached to an error. */
  function ResponseObj(r: Response): (o: Obj)
    ensures o.truthy == r.truthy
  {
    Obj(r.repr, r.repr, r.truthy)
  }
}

=== FILE: text.dfy ===
/** The pieces of Python 2 string behaviour the client code relies on:
    ASCII case mapping, `%d` and `int()` on decimal text, `str.join`,
    `str.split` on one separator character, and `repr` of a byte string.
    Strings are `seq<char>`; the byte strings of Python 2 are modelled as
    strings whose characters are below 256.
 */
module Text {
  import opened Wrappers

  predicate IsDigit(c: char) {
    '0' <= c <= '9'
  }

  /** Python 2 `str.isspace` for one byte. */
  predicate IsSpace(c: char) {
    c == ' ' || c == '\t' || c == '\n' || c == '\r' || c as int == 11 || c as int == 12
  }

  /** A character of the regular-expression class `\w` (no UNICODE flag). */
  predicate IsWordChar(c: char) {
    ('a' <= c <= 'z') || ('A' <= c <= 'Z') || IsDigit(c) || c == '_'
  }

  /** A character of the regular-expression class `[a-z0-9]`. */
  predicate IsLowerAlnum(c: char) {
    ('a' <= c <= 'z') || IsDigit(c)
  }

  predicate AllWordChars(s: string) {
    forall i :: 0 <= i < |s| ==> IsWordChar(s[i])
  }

  predicate StartsWith(s: string, prefix: string) {
    |prefix| <= |s| && s[..|prefix|] == prefix
  }

  predicate AllDigits(s: string) {
    forall i :: 0 <= i < |s| ==> IsDigit(s[i])
  }

  // ---------------------------------------------------------------------------
  // ASCII case mapping (`str.lower` / `str.upper` on a Python 2 byte string)
  // ---------------------------------------------------------------------------

  function LowerChar(c: char): char {
    if 'A' <= c <= 'Z' then (c as int + 32) as char else c
  }

  function UpperChar(c: char): char {
    if 'a' <= c <= 'z' then (c as int - 32) as char else c
  }

  function ToLower(s: string): (r: string)
    ensures |r| == |s|
    ensures forall i :: 0 <= i < |s| ==> r[i] == LowerChar(s[i])
  {
    if |s| == 0 then "" else [LowerChar(s[0])] + ToLower(s[1..])
  }

  function ToUpper(s: string): (r: string)
    ensures |r| == |s|
    ensures forall i :: 0 <= i < |s| ==> r[i] == UpperChar(s[i])
  {
    if |s| == 0 then "" else [UpperChar(s[0])] + ToUpper(s[1..])
  }

  /** Upper-casing twice is upper-casing once. */
  lemma ToUpperIdempotent(s: string)
    ensures ToUpper(ToUpper(s)) == ToUpper(s)
  {
    var u := ToUpper(s);
    assert forall i :: 0 <= i < |u| ==> UpperChar(u[i]) == u[i];
  }

  // ---------------------------------------------------------------------------
  // Decimal text: `'%d' % n` and `int(text)`
  // ---------------------------------------------------------------------------

  function DigitChar(d: nat): (c: char)
    requires d < 10
    ensures IsDigit(c)
  {
    ('0' as int + d) as char
  }

  function DigitValue(c: char): (d: nat)
    requires IsDigit(c)
    ensures d < 10
  {
    c as int - '0' as int
  }

  /** The decimal spelling of `n`, without leading zeros. */
  function NatToString(n: nat): (r: string)
    ensures |r| > 0 && AllDigits(r)
    ensures r[0] == '0' ==> n == 0
  {
    if n < 10 then [DigitChar(n)] else NatToString(n / 10) + [DigitChar(n % 10)]
  }

  /** `'%d' % n`: a minus sign, then the decimal digits. */
  function IntToString(n: int): (r: string)
    ensures |r| > 0
    ensures n >= 0 <==> IsDigit(r[0])
    ensures n < 0 <==> r[0] == '-'
  {
    if n < 0 then "-" + NatToString(-n) else NatToString(n)
  }

  /** The value of a run of decimal digits. */
  function DigitsValue(s: string): nat
    requires AllDigits(s)
  {
    if |s| == 0 then 0 else DigitsValue(s[..|s| - 1]) * 10 + DigitValue(s[|s| - 1])
  }

  function TrimLeft(s: string): (r: string)
    ensures |r| <= |s|
  {
    if |s| > 0 && IsSpace(s[0]) then TrimLeft(s[1..]) else s
  }

  function TrimRight(s: string): (r: string)
    ensures |r| <= |s|
  {
    if |s| > 0 && IsSpace(s[|s| - 1]) then TrimRight(s[..|s| - 1]) else s
  }

  /** Python 2 `int(text)` in base 10: surrounding white space, an optional
      sign, more white space allowed after the sign, and at least one digit;
      anything else is the `ValueError` case, here `None`. */
  function ParseInt(s: string): (r: Option<int>)
    ensures r.Some? ==> exists i :: 0 <= i < |s| && IsDigit(s[i])
  {
    var t := TrimRight(TrimLeft(s));
    assert forall i :: 0 <= i < |t| ==> t[i] in s by {
      TrimmedChars(s);
    }
    if |t| > 0 && (t[0] == '-' || t[0] == '+') then
      var u := TrimLeft(t[1..]);
      if |u| > 0 && AllDigits(u) then
        assert u[0] in s by {
          TrimLeftChars(t[1..]);
          assert u[0] in t[1..];
        }
        var v: int := DigitsValue(u);
        Some(if t[0] == '-' then -v else v)
      else None
    else if |t| > 0 && AllDigits(t) then
      assert t[0] in s;
      Some(DigitsValue(t))
    else
      None
  }

  lemma TrimmedChars(s: string)
    ensures forall i :: 0 <= i < |TrimRight(TrimLeft(s))| ==> TrimRight(TrimLeft(s))[i] in s
  {
    TrimLeftChars(s);
    TrimRightChars(TrimLeft(s));
  }

  lemma {:induction false} TrimLeftChars(s: string)
    ensures forall i :: 0 <= i < |TrimLeft(s)| ==> TrimLeft(s)[i] in s
  {
    if |s| > 0 && IsSpace(s[0]) {
      TrimLeftChars(s[1..]);
      assert forall c :: c in s[1..] ==> c in s;
    }
  }

  lemma {:induction false} TrimRightChars(s: string)
    ensures forall i :: 0 <= i < |TrimRight(s)| ==> TrimRight(s)[i] in s
  {
    if |s| > 0 && IsSpace(s[|s| - 1]) {
      TrimRightChars(s[..|s| - 1]);
      assert forall c :: c in s[..|s| - 1] ==> c in s;
    }
  }

  lemma {:induction false} DigitsValueOfNatToString(n: nat)
    ensures DigitsValue(NatToString(n)) == n
  {
    var r := NatToString(n);
    if n >= 10 {
      DigitsValueOfNatToString(n / 10);
      assert r[..|r| - 1] == NatToString(n / 10);
    }
  }

  /** `int('%d' % n) == n`: reading back the decimal spelling of any integer
      gives the integer. */
  lemma IntToStringRoundTrip(n: int)
    ensures ParseInt(IntToString(n)) == Some(n)
  {
    var s := IntToString(n);
    var d := NatToString(if n < 0 then -n else n);
    assert TrimLeft(s) == s;
    assert TrimRight(s) == s by {
      assert IsDigit(s[|s| - 1]);
    }
    DigitsValueOfNatToString(if n < 0 then -n else n);
    if n < 0 {
      assert s[1..] == d;
      assert TrimLeft(d) == d by {
        assert IsDigit(d[0]);
      }
    }
  }

  /** White space may follow the sign: `int("+ 80") == 80`. */
  lemma SpaceAfterSign()
    ensures ParseInt("+ 80") == Some(80)
  {
    var t := TrimRight(TrimLeft("+ 80"));
    assert TrimLeft("+ 80") == "+ 80";
    assert t == "+ 80";
    assert t[1..] == " 80";
    assert TrimLeft(" 80") == "80";
    assert DigitsValue("80") == 80 by {
      assert "80"[..1] == "8";
      assert DigitsValue("8") == 8 by {
        assert "8"[..0] == "";
      }
    }
  }

  // ---------------------------------------------------------------------------
  // `sep.join(parts)` and `s.split(sep)`
  // ---------------------------------------------------------------------------

  function Join(sep: string, parts: seq<string>): (r: string)
    ensures |parts| == 1 ==> r == parts[0]
  {
    if |parts| == 0 then ""
    else if |parts| == 1 then parts[0]
    else parts[0] + sep + Join(sep, parts[1..])
  }

  /** Python `s.split(sep)` for a one-character separator: the pieces between
      separators, always at least one (`"".split("\n") == [""]`). */
  function Split(s: string, sep: char): (r: seq<string>)
    ensures |r| >= 1
  {
    if |s| == 0 then [""]
    else if s[0] == sep then [""] + Split(s[1..], sep)
    else var t := Split(s[1..], sep); [[s[0]] + t[0]] + t[1..]
  }

  /** A string without the separator is a single piece. */
  lemma {:induction false} SplitNoSep(s: string, sep: char)
    requires sep !in s
    ensures Split(s, sep) == [s]
  {
    if |s| > 0 {
      assert sep !in s[1..] by {
        assert forall c :: c in s[1..] ==> c in s;
      }
      SplitNoSep(s[1..], sep);
      assert [s[0]] + s[1..] == s;
    }
  }

  /** Splitting `a + sep + b`, where `a` has no separator, yields `a` followed
      by the pieces of `b`. */
  lemma {:induction false} SplitAppend(a: string, sep: char, b: string)
    requires sep !in a
    ensures Split(a + [sep] + b, sep) == [a] + Split(b, sep)
  {
    if |a| == 0 {
      assert a + [sep] + b == [sep] + b;
      assert ([sep] + b)[1..] == b;
    } else {
      var s := a + [sep] + b;
      assert s[0] == a[0] && s[0] != sep;
      assert s[1..] == a[1..] + [sep] + b;
      assert sep !in a[1..] by {
        assert forall c :: c in a[1..] ==> c in a;
      }
      SplitAppend(a[1..], sep, b);
      assert [a[0]] + a[1..] == a;
    }
  }

  /** The position of the last occurrence of `c` in `s`, or -1. */
  function LastIndexOf(s: string, c: char): (r: int)
    ensures -1 <= r < |s|
    ensures r >= 0 ==> s[r] == c && c !in s[r + 1..]
    ensures r == -1 <==> c !in s
  {
    if |s| == 0 then -1
    else if s[|s| - 1] == c then |s| - 1
    else
      var init := s[..|s| - 1];
      var r := LastIndexOf(init, c);
      assert s == init + [s[|s| - 1]];
      assert c in s <==> c in init;
      assert r >= 0 ==> s[r] == init[r] && s[r + 1..] == init[r + 1..] + [s[|s| - 1]];
      r
  }

  /** The last `c` is the one after `a` when none follows it. */
  lemma {:induction false} LastIndexOfAfter(a: string, c: char, b: string)
    requires c !in b
    ensures LastIndexOf(a + [c] + b, c) == |a|
  {
    var s := a + [c] + b;
    if |b| > 0 {
      assert s[|s| - 1] == b[|b| - 1];
      assert s[..|s| - 1] == a + [c] + b[..|b| - 1];
      LastIndexOfAfter(a, c, b[..|b| - 1]);
    }
  }

  // ---------------------------------------------------------------------------
  // `repr` of a Python 2 byte string
  // ---------------------------------------------------------------------------

  function HexDigit(d: nat): char
    requires d < 16
  {
    if d < 10 then DigitChar(d) else ('a' as int + d - 10) as char
  }

  /** One byte inside a repr: the quote and backslash are escaped, tab, line
      feed and carriage return get their letter escapes, other control and
      non-ASCII bytes become `\xNN`. */
  function ReprChar(c: char, quote: char): string {
    if c == quote || c == '\\' then ['\\', c]
    else if c == '\t' then "\\t"
    else if c == '\n' then "\\n"
    else if c == '\r' then "\\r"
    else if c < ' ' || c as int >= 127 then
      var b := c as int % 256;
      ['\\', 'x', HexDigit(b / 16), HexDigit(b % 16)]
    else [c]
  }

  function ReprBody(s: string, quote: char): string {
    if |s| == 0 then "" else ReprChar(s[0], quote) + ReprBody(s[1..], quote)
  }

  /** `repr(s)`: single quotes unless the text holds a single quote and no
      double quote. */
  function PyRepr(s: string): (r: string)
    ensures |r| >= 2 && r[0] == r[|r| - 1] && (r[0] == '\'' || r[0] == '"')
  {
    var quote := if '\'' in s && '"' !in s then '"' else '\'';
    [quote] + ReprBody(s, quote) + [quote]
  }
}

=== FILE: wrappers.dfy ===
/** Failure-compatible wrappers used throughout the model.

    Python's "return a value or raise" is modelled as `Result`: `Ok(v)` is a
    normal return, `Err(e)` is the exception `e` propagating to the caller.
    Python's `None` becomes `Option.None`.
 */
module Wrappers {

  datatype Option<+T> = None | Some(value: T)

  datatype Result<+T, +E> = Ok(value: T) | Err(error: E) {

    predicate IsFailure() {
      Err?
    }

    function PropagateFailure<U>(): Result<U, E>
      requires Err?
    {
      Err(error)
    }

    function Extract(): T
      requires Ok?
    {
      value
    }
  }

  /** The outcome of a call that either returns normally or raises. */
  datatype Outcome<+E> = Pass | Fail(error: E)
}

=== FILE: zoho.dfy ===
/** The Zoho REST client (smapi/zoho.py): scope resolution, token issuance
    with its two-tier body decoding, client construction and the REST call
    with its outcome classification.

    The remote service is a parameter `server: Request -> Response`: the
    model builds the request the code would send and classifies whatever
    reply the service gives. Logging is a side effect and is not modelled;
    a call that "logs and returns None" returns `Ok(None)`, a call that
    raises returns `Err(e)`.
 */
module Zoho {
  import opened Wrappers
  import opened Text
  import opened Exc
  import opened Http

  /** `ZohoMail/ZohoMailAPI` and `ZohoCRM/crmapi`, written in their parts. */
  const MailScope := "Zoho" + "Mail" + "/" + "ZohoMailAPI"
  const CrmScope := "Zoho" + "CRM" + "/" + "crmapi"

  /** The short scope names, in the order the error message lists them. */
  const ScopeNames: seq<string> := ["mail", "crm"]
  const Scopes: map<string, string> := map["mail" := MailScope, "crm" := CrmScope]

  const ApiBaseUri := "https://mail.zoho.com/api"
  const TokenBaseUri := "https://accounts.zoho.com/apiauthtoken/nb/create"

  const HttpMethods: seq<string> := ["GET", "POST", "PUT", "DELETE"]

  /** An HTTP request as handed to `requests`: verb, URL, headers and query
      parameters (empty when none are sent). */
  datatype Request = Request(verb: string, url: string, headers: map<string, string>, params: map<string, string>)

  // ---------------------------------------------------------------------------
  // _log
  // ---------------------------------------------------------------------------

  /** The keyword arguments `_log` passes on to `ZohoError`. */
  datatype ExceptionArgs = ExceptionArgs(baseEx: Option<Obj>, dumpObjs: Option<Dict>, httpResponse: Option<Obj>)

  const NoArgs := ExceptionArgs(None, None, None)

  function WithResponse(resp: Response): ExceptionArgs {
    ExceptionArgs(None, None, Some(ResponseObj(resp)))
  }

  function WithResponseAndCause(resp: Response, cause: Obj): ExceptionArgs {
    ExceptionArgs(Some(cause), None, Some(ResponseObj(resp)))
  }

  /** `_log(message, throw_exception=..., exception=..., exception_args=...)`:
      raises exactly when asked to, the given exception taking precedence
      over a new `ZohoError` built from the message and the arguments. */
  function Log(message: string, throwException: bool, exception: Option<Error>, args: ExceptionArgs): (r: Outcome<Error>)
    ensures r.Fail? <==> throwException
    ensures r.Fail? && exception.Some? ==> r.error == exception.value
    ensures r.Fail? && exception.None? ==>
              && r.error.ZohoError?
              && r.error.message == message
              && r.error.baseEx == args.baseEx
              && r.error.dumpObjs == args.dumpObjs
    ensures r.Fail? && exception.None? && Truthy(args.httpResponse) ==> r.error.httpResponse == args.httpResponse
    ensures r.Fail? && exception.None? && args.dumpObjs.None? ==> r.error.httpResponse == args.httpResponse
  {
    if !throwException then Pass
    else if exception.Some? then Fail(exception.value)
    else Fail(NewZohoError(message, args.baseEx, args.dumpObjs, args.httpResponse))
  }

  /** `_log(message, throw_exception=True)`: the error it raises. */
  function Raise(message: string): Error {
    Log(message, true, None, NoArgs).error
  }

  /** `_log(message, throw_exception=use_exceptions, exception_args=args)`
      followed by `return None`. */
  function Report<T>(message: string, useExceptions: bool, args: ExceptionArgs): (r: Result<Option<T>, Error>)
    ensures r.Ok? <==> !useExceptions
    ensures r.Ok? ==> r.value.None?
    ensures r.Err? ==> r.error.ZohoError? && r.error.message == message && r.error.baseEx == args.baseEx
    ensures r.Err? && Truthy(args.httpResponse) ==> r.error.httpResponse == args.httpResponse
    ensures r.Err? && args.dumpObjs.None? ==> r.error.httpResponse == args.httpResponse
  {
    match Log(message, useExceptions, None, args)
    case Pass => Ok(None)
    case Fail(e) => Err(e)
  }

  // ---------------------------------------------------------------------------
  // Scope names
  // ---------------------------------------------------------------------------

  /** `re.match(r'^Zoho\w+\/\w+$', s)`: `Zoho`, word characters, one slash,
      word characters, and nothing else except an optional final line feed
      (which `$` tolerates). */
  predicate ScopeShaped(s: string) {
    var c := if |s| > 0 && s[|s| - 1] == '\n' then s[..|s| - 1] else s;
    && |c| >= 7
    && c[..4] == "Zoho"
    && exists i :: 5 <= i < |c| - 1 && c[i] == '/' && AllWordChars(c[4..i]) && AllWordChars(c[i + 1..])
  }

  /** `Zoho`, a product, a slash and an API name, all word characters,
      make a scope. */
  lemma ScopeShapedOf(product: string, api: string)
    requires |product| > 0 && |api| > 0 && AllWordChars(product) && AllWordChars(api)
    ensures ScopeShaped("Zoho" + product + "/" + api)
  {
    var s := "Zoho" + product + "/" + api;
    var i := 4 + |product|;
    assert s[|s| - 1] == api[|api| - 1] && api[|api| - 1] != '\n';
    assert s[..4] == "Zoho" && s[i] == '/';
    assert s[4..i] == product && s[i + 1..] == api;
  }

  function InvalidScopeMessage(lowered: string): string {
    "Invalid scope_name: \"" + lowered + "\". Must be one of \"" + Join("\", \"", ScopeNames) + "\""
  }

  lemma TableScopesShaped()
    ensures ScopeShaped(MailScope) && ScopeShaped(CrmScope)
  {
    assert AllWordChars("Mail") && AllWordChars("ZohoMailAPI");
    ScopeShapedOf("Mail", "ZohoMailAPI");
    assert AllWordChars("CRM") && AllWordChars("crmapi");
    ScopeShapedOf("CRM", "crmapi");
  }

  /** `_get_scope(scope_name, use_exceptions)`: no name means the mail scope;
      a name already shaped like `ZohoProduct/api` is returned unchanged;
      any other name is lower-cased and looked up in the scope table; an
      unknown name raises, or gives `None` when exceptions are off. */
  function GetScope(scopeName: string, useExceptions: bool): (r: Result<Option<string>, Error>)
    ensures scopeName == "" ==> r == Ok(Some(MailScope))
    ensures scopeName != "" && ScopeShaped(scopeName) ==> r == Ok(Some(scopeName))
    ensures scopeName != "" && !ScopeShaped(scopeName) ==>
              (r.Ok? && r.value.Some? <==> ToLower(scopeName) in Scopes)
    ensures scopeName != "" && !ScopeShaped(scopeName) && ToLower(scopeName) in Scopes ==>
              r == Ok(Some(Scopes[ToLower(scopeName)]))
    ensures r.Ok? && r.value.Some? ==> ScopeShaped(r.value.value)
    ensures r.Ok? && r.value.None? ==> !useExceptions
    ensures r.Err? ==> useExceptions && r.error.message == InvalidScopeMessage(ToLower(scopeName))
  {
    TableScopesShaped();
    if scopeName == "" then Ok(Some(MailScope))
    else if ScopeShaped(scopeName) then Ok(Some(scopeName))
    else
      var lowered := ToLower(scopeName);
      if lowered in Scopes then Ok(Some(Scopes[lowered]))
      else Report(InvalidScopeMessage(lowered), useExceptions, NoArgs)
  }

  /** Resolving a resolved scope changes nothing. */
  lemma GetScopeIdempotent(scopeName: string, useExceptions: bool)
    requires GetScope(scopeName, useExceptions).Ok? && GetScope(scopeName, useExceptions).value.Some?
    ensures var s := GetScope(scopeName, useExceptions).value.value;
            GetScope(s, useExceptions) == Ok(Some(s))
  {
    TableScopesShaped();
  }

  // ---------------------------------------------------------------------------
  // Token issuance
  // ---------------------------------------------------------------------------

  /** `re.match(r'^[a-z0-9]{32}$', token)`: 32 lower-case letters or digits,
      optionally followed by one final line feed. */
  predicate TokenShaped(t: string) {
    && (|t| == 32 || (|t| == 33 && t[32] == '\n'))
    && forall i :: 0 <= i < 32 ==> IsLowerAlnum(t[i])
  }

  /** One line of a `KEY=VALUE` body as `re.findall(r'^(?!#)(.*)=(.*)$', ...,
      re.MULTILINE)` sees it: nothing for a comment line or a line without
      `=`; otherwise the text before the last `=` (the greedy key) and the
      text after it. */
  function ParseLine(line: string): (r: Option<(string, string)>)
    ensures r.None? <==> (|line| > 0 && line[0] == '#') || '=' !in line
    ensures r.Some? ==> line == r.value.0 + "=" + r.value.1 && '=' !in r.value.1
  {
    if |line| > 0 && line[0] == '#' then None
    else
      var i := LastIndexOf(line, '=');
      if i < 0 then None
      else
        assert line == line[..i] + "=" + line[i + 1..];
        Some((line[..i], line[i + 1..]))
  }

  /** A line written as `key=value`, with no `=` in the value and no
      leading `#`, is read back as that pair. */
  lemma ParseLineOfPair(key: string, value: string)
    requires '=' !in value && (|key| == 0 || key[0] != '#')
    ensures ParseLine(key + "=" + value) == Some((key, value))
  {
    var line := key + "=" + value;
    assert line == key + ['='] + value;
    LastIndexOfAfter(key, '=', value);
    assert line[..|key|] == key && line[|key| + 1..] == value;
  }

  /** Line `line` defines the key `k`. */
  predicate Defines(line: string, k: string) {
    ParseLine(line).Some? && ParseLine(line).value.0 == k
  }

  /** `dict(pairs)`: the pairs of the lines in order, a later key
      overriding an earlier one. */
  function CollectPairs(lines: seq<string>): map<string, string> {
    if |lines| == 0 then map[] else Extend(CollectPairs(lines[..|lines| - 1]), lines[|lines| - 1])
  }

  /** The map after one more line. */
  function Extend(m: map<string, string>, line: string): (m': map<string, string>)
    ensures forall k :: Defines(line, k) ==> k in m' && m'[k] == ParseLine(line).value.1
    ensures forall k :: !Defines(line, k) ==> (k in m' <==> k in m) && (k in m ==> m'[k] == m[k])
  {
    match ParseLine(line)
    case None => m
    case Some(kv) => m[kv.0 := kv.1]
  }

  /** A key is in the fallback map iff some line defines it. */
  lemma {:induction false} CollectPairsKeys(lines: seq<string>, k: string)
    ensures k in CollectPairs(lines) <==> exists i :: 0 <= i < |lines| && Defines(lines[i], k)
  {
    if |lines| > 0 {
      var n := |lines| - 1;
      var init := lines[..n];
      CollectPairsKeys(init, k);
      assert CollectPairs(lines) == Extend(CollectPairs(init), lines[n]);
      if Defines(lines[n], k) {
        assert k in CollectPairs(lines);
      } else {
        assert k in CollectPairs(lines) <==> k in CollectPairs(init);
        assert forall i :: 0 <= i < n ==> lines[i] == init[i];
      }
    }
  }

  /** Line `i` defines `k` as `v` and no later line defines `k`. */
  predicate LastDefinition(lines: seq<string>, i: int, k: string, v: string) {
    && 0 <= i < |lines|
    && ParseLine(lines[i]) == Some((k, v))
    && forall j :: i < j < |lines| ==> !Defines(lines[j], k)
  }

  /** A key's value in the fallback map is the one given by the last line
      that defines it. */
  lemma {:induction false} CollectPairsLastWins(lines: seq<string>, k: string)
    requires k in CollectPairs(lines)
    ensures exists i :: LastDefinition(lines, i, k, CollectPairs(lines)[k])
  {
    var n := |lines| - 1;
    var init := lines[..n];
    var v := CollectPairs(lines)[k];
    assert CollectPairs(lines) == Extend(CollectPairs(init), lines[n]);
    if Defines(lines[n], k) {
      LastLineWins(lines, k, v);
      assert LastDefinition(lines, n, k, v);
    } else {
      assert k in CollectPairs(init) && CollectPairs(init)[k] == v;
      CollectPairsLastWins(init, k);
      var i :| LastDefinition(init, i, k, v);
      LastDefinitionExtends(lines, i, k, v);
    }
  }

  lemma LastDefinitionExtends(lines: seq<string>, i: int, k: string, v: string)
    requires |lines| > 0 && !Defines(lines[|lines| - 1], k)
    requires LastDefinition(lines[..|lines| - 1], i, k, v)
    ensures LastDefinition(lines, i, k, v)
  {
    var n := |lines| - 1;
    assert lines[i] == lines[..n][i];
    forall j | i < j < |lines|
      ensures !Defines(lines[j], k)
    {
      if j < n {
        assert lines[j] == lines[..n][j];
      }
    }
  }

  lemma LastLineWins(lines: seq<string>, k: string, v: string)
    requires |lines| > 0 && Defines(lines[|lines| - 1], k)
    requires k in CollectPairs(lines) && CollectPairs(lines)[k] == v
    ensures ParseLine(lines[|lines| - 1]) == Some((k, v))
  {
    var n := |lines| - 1;
    assert CollectPairs(lines) == Extend(CollectPairs(lines[..n]), lines[n]);
  }

  /** A line that defines nothing (a comment line, or one without `=`) can be
      dropped without changing the map. */
  lemma {:induction false} CollectPairsSkipsLine(before: seq<string>, line: string, after: seq<string>)
    requires ParseLine(line).None?
    ensures CollectPairs(before + [line] + after) == CollectPairs(before + after)
  {
    var long := before + [line] + after;
    var short := before + after;
    if |after| == 0 {
      assert long[..|long| - 1] == before && long[|long| - 1] == line;
      assert CollectPairs(long) == Extend(CollectPairs(before), line);
      assert Extend(CollectPairs(before), line) == CollectPairs(before);
      assert short == before;
    } else {
      var n := |after| - 1;
      CollectPairsSkipsLine(before, line, after[..n]);
      assert long[..|long| - 1] == before + [line] + after[..n];
      assert short[..|short| - 1] == before + after[..n];
      assert long[|long| - 1] == short[|short| - 1];
      assert CollectPairs(long) == Extend(CollectPairs(long[..|long| - 1]), long[|long| - 1]);
      assert CollectPairs(short) == Extend(CollectPairs(short[..|short| - 1]), short[|short| - 1]);
    }
  }

  /** The fields of a `KEY=VALUE` body, every value a string. */
  function TextFields(content: string): (fields: map<string, Json>)
    ensures fields.Keys == CollectPairs(Split(content, '\n')).Keys
  {
    var kv := CollectPairs(Split(content, '\n'));
    map k | k in kv :: JStr(kv[k])
  }

  /** The query sent to the token endpoint. */
  function TokenRequest(emailId: string, password: string, scope: string): Request {
    Request("GET", TokenBaseUri, map[], map["EMAIL_ID" := emailId, "PASSWORD" := password, "SCOPE" := scope])
  }

  function UnreadableBodyMessage(resp: Response): string {
    "Unable to fetch API token, invalid response: \"" + PyRepr(resp.content) + "\""
  }

  const InvalidTokenResponse := "Invalid AUTHTOKEN response: "

  /** Both decoding tiers: accept only `RESULT` equal to the string `TRUE`,
      then return `AUTHTOKEN`, or `None` when that key is absent. */
  function CheckTokenFields(fields: map<string, Json>, resp: Response, useExceptions: bool): (r: Result<Option<Json>, Error>)
    ensures r.Ok? && r.value.Some? <==> Get(fields, "RESULT") == Some(JStr("TRUE")) && "AUTHTOKEN" in fields
    ensures r.Ok? && r.value.Some? ==> r.value.value == fields["AUTHTOKEN"]
    ensures Get(fields, "RESULT") == Some(JStr("TRUE")) ==> r == Ok(Get(fields, "AUTHTOKEN"))
    ensures Get(fields, "RESULT") != Some(JStr("TRUE")) ==> (r.Err? <==> useExceptions)
    ensures r.Err? ==>
              && r.error.ZohoError? && r.error.message == InvalidTokenResponse
              && r.error.httpResponse == Some(ResponseObj(resp))
  {
    if "RESULT" !in fields || fields["RESULT"] != JStr("TRUE") then
      Report(InvalidTokenResponse, useExceptions, WithResponse(resp))
    else
      Ok(Get(fields, "AUTHTOKEN"))
  }

  /** The field map a body decodes to: the JSON object, or else the
      `KEY=VALUE` lines of the raw body. */
  function BodyFields(resp: Response): map<string, Json> {
    match resp.body
    case DecodeOk(fields) => fields
    case DecodeFail(_) => TextFields(resp.content)
  }

  /** The decoding part of `fetch_token` (lines 111-136). */
  function DecodeTokenBody(resp: Response, useExceptions: bool): (r: Result<Option<Json>, Error>)
    ensures |BodyFields(resp)| == 0 ==> (r.Ok? <==> !useExceptions)
    ensures |BodyFields(resp)| == 0 && r.Err? ==>
              r.error.message == UnreadableBodyMessage(resp) && (resp.body.DecodeFail? ==> r.error.baseEx == Some(resp.body.error))
    ensures |BodyFields(resp)| > 0 ==> r == CheckTokenFields(BodyFields(resp), resp, useExceptions)
    ensures r.Err? ==> r.error.ZohoError? && r.error.httpResponse == Some(ResponseObj(resp))
  {
    match resp.body
    case DecodeOk(fields) =>
      if |fields| == 0 then Report(UnreadableBodyMessage(resp), useExceptions, WithResponse(resp))
      else CheckTokenFields(fields, resp, useExceptions)
    case DecodeFail(ex) =>
      var fields := TextFields(resp.content);
      if |fields| == 0 then Report(UnreadableBodyMessage(resp), useExceptions, WithResponseAndCause(resp, ex))
      else CheckTokenFields(fields, resp, useExceptions)
  }

  function HttpErrorMessage(resp: Response): string {
    "HTTP Error " + IntToString(resp.statusCode) + " (" + resp.reason + "): " + resp.content
  }

  /** `fetch_token(email_id, password, use_exceptions, scope_name)`, the
      token endpoint being `server`. */
  function FetchToken(emailId: string, password: string, useExceptions: bool, scopeName: string,
                      server: Request -> Response): (r: Result<Option<Json>, Error>)
    ensures !useExceptions ==> r.Ok?
    ensures GetScope(scopeName, useExceptions).Err? ==> r == Err(GetScope(scopeName, useExceptions).error)
    ensures GetScope(scopeName, useExceptions) == Ok(None) ==> r == Ok(None)
    ensures GetScope(scopeName, useExceptions).Ok? && GetScope(scopeName, useExceptions).value.Some? ==>
              var resp := server(TokenRequest(emailId, password, GetScope(scopeName, useExceptions).value.value));
              && (!resp.truthy || resp.statusCode != 200 ==>
                    && (r.Err? <==> useExceptions)
                    && (r.Ok? ==> r.value.None?)
                    && (r.Err? ==> r.error.ZohoError? && r.error.httpResponse == Some(ResponseObj(resp))))
              && (!resp.truthy ==> r.Err? ==> r.error.message == "No response from API token request")
              && (resp.truthy && resp.statusCode != 200 ==> r.Err? ==> r.error.message == HttpErrorMessage(resp))
              && (resp.truthy && resp.statusCode == 200 ==> r == DecodeTokenBody(resp, useExceptions))
    ensures r.Ok? && r.value.Some? ==>
              && GetScope(scopeName, useExceptions).Ok?
              && GetScope(scopeName, useExceptions).value.Some?
              && var resp := server(TokenRequest(emailId, password, GetScope(scopeName, useExceptions).value.value));
                 && resp.truthy && resp.statusCode == 200
                 && Get(BodyFields(resp), "RESULT") == Some(JStr("TRUE"))
                 && Get(BodyFields(resp), "AUTHTOKEN") == r.value
  {
    var scope :- GetScope(scopeName, useExceptions);
    if scope.None? then Ok(None)
    else
      var resp := server(TokenRequest(emailId, password, scope.value));
      if !resp.truthy then
        Report("No response from API token request", useExceptions, WithResponse(resp))
      else if resp.statusCode != 200 then
        Report(HttpErrorMessage(resp), useExceptions, WithResponse(resp))
      else
        DecodeTokenBody(resp, useExceptions)
  }

  /** A status other than 200 is rejected before the body is decoded: the
      outcome does not depend on what the decoder would have produced. */
  lemma BadStatusIgnoresBody(emailId: string, password: string, useExceptions: bool, scopeName: string,
                             server: Request -> Response, other: Request -> Response)
    requires forall q :: other(q) == server(q).(body := other(q).body)
    requires forall q :: server(q).statusCode != 200
    ensures FetchToken(emailId, password, useExceptions, scopeName, server)
         == FetchToken(emailId, password, useExceptions, scopeName, other)
    ensures var r := FetchToken(emailId, password, useExceptions, scopeName, server); !(r.Ok? && r.value.Some?)
  {
  }

  /** The token is returned exactly when the scope resolves, the reply is a
      200 and whichever tier decoded the body gives `RESULT` equal to
      `TRUE` and an `AUTHTOKEN` field. */
  lemma FetchTokenSucceedsIff(emailId: string, password: string, useExceptions: bool, scopeName: string,
                              server: Request -> Response, token: Json)
    ensures FetchToken(emailId, password, useExceptions, scopeName, server) == Ok(Some(token)) <==>
              && GetScope(scopeName, useExceptions).Ok?
              && GetScope(scopeName, useExceptions).value.Some?
              && var resp := server(TokenRequest(emailId, password, GetScope(scopeName, useExceptions).value.value));
                 && resp.truthy && resp.statusCode == 200
                 && Get(BodyFields(resp), "RESULT") == Some(JStr("TRUE"))
                 && Get(BodyFields(resp), "AUTHTOKEN") == Some(token)
  {
  }

  // ---------------------------------------------------------------------------
  // Client construction
  // ---------------------------------------------------------------------------

  /** A constructed client: its e-mail account, API token and scope. */
  datatype ZohoClient = ZohoClient(emailId: string, token: Json, scope: Option<string>)

  /** The constructor's scope: the mail scope without a name, else
      `_get_scope(scope_name)`, which raises rather than give `None`. */
  function ClientScope(scopeName: string): Result<Option<string>, Error> {
    if scopeName != "" then GetScope(scopeName, true) else Ok(Some(MailScope))
  }

  /** The supplied token cannot be used as it is: a fetch is asked for, or
      it does not match `^[a-z0-9]{32}$`. */
  predicate NeedsFetch(token: string, fetchToken: bool) {
    fetchToken || !TokenShaped(token)
  }

  /** `ZohoAPI(token, email_id, scope_name, fetch_token)`. A supplied token is
      kept as it is when it is shaped like a token and no fetch is asked for;
      otherwise the token is fetched from `server` for `email_id`, using the
      supplied token as the password and the default scope. */
  function NewClient(token: string, emailId: string, scopeName: string, fetchToken: bool,
                     server: Request -> Response): (r: Result<ZohoClient, Error>)
    ensures ClientScope(scopeName).Err? ==> r == Err(GetScope(scopeName, true).error)
    ensures ClientScope(scopeName).Ok? ==> ClientScope(scopeName).value.Some?
    ensures r.Ok? ==> r.value.emailId == emailId && r.value.scope == ClientScope(scopeName).value
    ensures ClientScope(scopeName).Ok? && !NeedsFetch(token, fetchToken) ==>
              r == Ok(ZohoClient(emailId, JStr(token), ClientScope(scopeName).value))
    ensures ClientScope(scopeName).Ok? && NeedsFetch(token, fetchToken) && emailId == "" ==>
              r.Err? && r.error.message == "Unable to fetch a token without specifying an email_id"
    ensures ClientScope(scopeName).Ok? && NeedsFetch(token, fetchToken) && emailId != "" ==>
              var fetched := FetchToken(emailId, token, true, "", server);
              && (fetched.Err? ==> r == Err(fetched.error))
              && (fetched.Ok? && !PresentAndTruthy(fetched.value) ==>
                    r.Err? && r.error.message == "No Zoho API Token Provided")
              && (fetched.Ok? && PresentAndTruthy(fetched.value) ==>
                    r == Ok(ZohoClient(emailId, fetched.value.value, ClientScope(scopeName).value)))
  {
    var scope :- ClientScope(scopeName);
    if NeedsFetch(token, fetchToken) then
      if emailId == "" then Err(Raise("Unable to fetch a token without specifying an email_id"))
      else
        var fetched :- FetchToken(emailId, token, true, "", server);
        if !PresentAndTruthy(fetched) then Err(Raise("No Zoho API Token Provided"))
        else Ok(ZohoClient(emailId, fetched.value, scope))
    else
      Ok(ZohoClient(emailId, JStr(token), scope))
  }

  /** A client is built exactly when the scope resolves and the token is
      either the supplied one, usable as it is, or a truthy token that the
      token endpoint issues for `email_id`. */
  lemma NewClientSucceedsIff(token: string, emailId: string, scopeName: string, fetchToken: bool,
                             server: Request -> Response, c: ZohoClient)
    ensures NewClient(token, emailId, scopeName, fetchToken, server) == Ok(c) <==>
              && ClientScope(scopeName).Ok?
              && c.emailId == emailId
              && c.scope == ClientScope(scopeName).value
              && (!NeedsFetch(token, fetchToken) ==> c.token == JStr(token))
              && (NeedsFetch(token, fetchToken) ==>
                    && emailId != ""
                    && JsonTruthy(c.token)
                    && FetchToken(emailId, token, true, "", server) == Ok(Some(c.token)))
  {
    var r := NewClient(token, emailId, scopeName, fetchToken, server);
    if ClientScope(scopeName).Ok? && NeedsFetch(token, fetchToken) && emailId != "" {
      var fetched := FetchToken(emailId, token, true, "", server);
      if fetched == Ok(Some(c.token)) && JsonTruthy(c.token) {
        assert PresentAndTruthy(fetched.value);
      }
    }
  }

  // ---------------------------------------------------------------------------
  // REST calls
  // ---------------------------------------------------------------------------

  function InvalidMethodMessage(httpMethod: string): string {
    "Invalid HTTP method: \"" + ToUpper(httpMethod) + "\""
  }

  /** The request part of `_call_zoho`: the method is upper-cased and must be
      one of GET, POST, PUT and DELETE before anything is sent; the request
      goes to the API base URI joined with the path and carries the token in
      a `Zoho-authtoken` authorization header. */
  function PrepareRestCall(c: ZohoClient, path: string, params: map<string, string>, httpMethod: string,
                           useExceptions: bool): (r: Result<Option<Request>, Error>)
    ensures r.Ok? && r.value.Some? <==> ToUpper(httpMethod) in HttpMethods
    ensures ToUpper(httpMethod) !in HttpMethods ==>
              (r.Err? <==> useExceptions) && (r.Err? ==> r.error.message == InvalidMethodMessage(httpMethod))
    ensures r.Ok? && r.value.Some? ==>
              var req := r.value.value;
              && req.verb == ToUpper(httpMethod)
              && req.url == ApiBaseUri + "/" + path
              && req.headers == map["Authorization" := "Zoho-authtoken " + Show(c.token)]
              && req.params == params
  {
    var verb := ToUpper(httpMethod);
    if verb !in HttpMethods then Report(InvalidMethodMessage(httpMethod), useExceptions, NoArgs)
    else Ok(Some(Request(verb, ApiBaseUri + "/" + path, map["Authorization" := "Zoho-authtoken " + Show(c.token)], params)))
  }

  /** The method name is case-insensitive: `get` and `GET` make the same call. */
  lemma MethodCaseInsensitive(c: ZohoClient, path: string, params: map<string, string>, httpMethod: string, useExceptions: bool)
    ensures PrepareRestCall(c, path, params, httpMethod, useExceptions)
         == PrepareRestCall(c, path, params, ToUpper(httpMethod), useExceptions)
  {
    ToUpperIdempotent(httpMethod);
  }

  /** What a REST call hands back: the `data` field (`None` when absent or
      when the call gave up quietly) and the warning logged for a failure
      status that still carried data. */
  datatype Reply = Reply(data: Option<Json>, warning: Option<string>)

  /** How control leaves the `try` block of `_call_zoho`. */
  datatype Attempt =
    | Completed(data: Option<Json>, warning: Option<string>)  // fell through to the end of the block
    | Finished(result: Result<Reply, Error>)                   // returned, or raised from an `except` clause
    | Raised(error: Error)                                     // a `ZohoError` raised by `_log` inside the block
    | Crashed(text: string, cause: Obj)                        // any other exception inside the block

  /** `res_status.get(...)` on a status that is not an object raises this
      `AttributeError`. */
  function AttributeErrorText(status: Json): string {
    "'" + TypeName(status) + "' object has no attribute 'get'"
  }

  function AttributeErrorObj(status: Json): Obj {
    var text := AttributeErrorText(status);
    Obj("AttributeError(\"" + text + "\",)", text, true)
  }

  /** The `status.description` shown in messages, `Unknown Error` by default. */
  function Description(status: map<string, Json>): string {
    Show(if "description" in status then status["description"] else JStr("Unknown Error"))
  }

  function StatusSuffix(description: string, resp: Response): string {
    description + " (HTTP Code: " + IntToString(resp.statusCode) + " - " + resp.reason + ")"
  }

  const SoftPrefix := "Non-fatal HTTP warning: "
  const HardPrefix := "HTTP Error from Zoho API: "
  const NoValidResponse := "No valid response from Zoho API"
  const GeneralPrefix := "General Error calling API: "

  /** `_log(message, throw_exception=use_exceptions, ...)` then `return None`. */
  function ReportReply(message: string, useExceptions: bool, args: ExceptionArgs): Result<Reply, Error> {
    match Log(message, useExceptions, None, args)
    case Pass => Ok(Reply(None, None))
    case Fail(e) => Err(e)
  }

  /** `_log(...)` inside the `try` block. */
  function LogInTry(message: string, useExceptions: bool): Attempt {
    match Log(message, useExceptions, None, NoArgs)
    case Pass => Finished(Ok(Reply(None, None)))
    case Fail(e) => Raised(e)
  }

  /** The `try` block of `_call_zoho` (lines 214-240) and its
      `JSONDecodeError` clause (lines 241-244). */
  function TryBlock(resp: Response, useExceptions: bool): Attempt {
    if !resp.truthy then LogInTry("No HTTP response", useExceptions)
    else
      match resp.body
      case DecodeFail(ex) =>
        Finished(ReportReply("JSON Decoding Error: " + ex.text, useExceptions, WithResponseAndCause(resp, ex)))
      case DecodeOk(fields) =>
        if |fields| == 0 then LogInTry(NoValidResponse, useExceptions)
        else
          var data := Get(fields, "data");
          var status := Get(fields, "status");
          if PresentAndTruthy(status) && resp.statusCode != 200 then
            if !status.value.JObject? then
              Crashed(AttributeErrorText(status.value), AttributeErrorObj(status.value))
            else
              var soft := PresentAndTruthy(data);
              var message := (if soft then SoftPrefix else HardPrefix) + StatusSuffix(Description(status.value.fields), resp);
              match Log(message, !soft, None, if soft then NoArgs else WithResponse(resp))
              case Pass => Completed(data, Some(message))
              case Fail(e) => Raised(e)
          else
            Completed(data, None)
  }

  /** The generic `except Exception` clause (lines 252-255). */
  function GeneralError(resp: Response, text: string, cause: Obj, useExceptions: bool): (r: Result<Reply, Error>)
    ensures r.Ok? <==> !useExceptions
    ensures r.Ok? ==> r.value == Reply(None, None)
    ensures r.Err? ==> r.error.message == GeneralPrefix + text && r.error.baseEx == Some(cause)
    ensures r.Err? ==> r.error.ZohoError? && r.error.httpResponse == Some(ResponseObj(resp))
  {
    ReportReply(GeneralPrefix + text, useExceptions, WithResponseAndCause(resp, cause))
  }

  /** After the `try` block (lines 257-260): falsy data is reported, and is
      still returned when exceptions are off. */
  function AfterTry(data: Option<Json>, warning: Option<string>, useExceptions: bool): Result<Reply, Error> {
    if !PresentAndTruthy(data) then
      match Log(NoValidResponse, useExceptions, None, NoArgs)
      case Pass => Ok(Reply(data, warning))
      case Fail(e) => Err(e)
    else Ok(Reply(data, warning))
  }

  /** The reply has a truthy status object and a status code other than 200. */
  predicate FailureStatus(resp: Response) {
    && resp.body.DecodeOk?
    && PresentAndTruthy(Get(resp.body.fields, "status"))
    && resp.statusCode != 200
  }

  /** A truthy, decoded, non-empty JSON object came back. */
  predicate UsableReply(resp: Response) {
    resp.truthy && resp.body.DecodeOk? && |resp.body.fields| > 0
  }

  /** The outcome of a REST reply, with every `ZohoError` raised inside the
      `try` block propagating unchanged:
      data with a success status is returned; data with a failure status is
      returned along with a warning; a failure status without data raises
      with the response attached, whether or not exceptions are enabled;
      with exceptions enabled, every normal return carries truthy data. */
  function ClassifyReply(resp: Response, useExceptions: bool): (r: Result<Reply, Error>)
    ensures r.Ok? && PresentAndTruthy(r.value.data) <==>
              && UsableReply(resp)
              && PresentAndTruthy(Get(resp.body.fields, "data"))
              && (FailureStatus(resp) ==> Get(resp.body.fields, "status").value.JObject?)
    ensures r.Ok? && PresentAndTruthy(r.value.data) ==> r.value.data == Get(resp.body.fields, "data")
    ensures r.Ok? && r.value.warning.Some? <==>
              UsableReply(resp) && FailureStatus(resp) && PresentAndTruthy(Get(resp.body.fields, "data"))
              && Get(resp.body.fields, "status").value.JObject?
    ensures UsableReply(resp) && FailureStatus(resp) && Get(resp.body.fields, "status").value.JObject?
            && !PresentAndTruthy(Get(resp.body.fields, "data")) ==>
              r.Err? && StartsWith(r.error.message, HardPrefix)
              && r.error.ZohoError? && r.error.httpResponse == Some(ResponseObj(resp))
    ensures useExceptions && r.Ok? ==> PresentAndTruthy(r.value.data)
    ensures !useExceptions && r.Err? ==>
              && UsableReply(resp) && FailureStatus(resp) && Get(resp.body.fields, "status").value.JObject?
              && !PresentAndTruthy(Get(resp.body.fields, "data"))
    ensures !useExceptions && UsableReply(resp) && !FailureStatus(resp) ==>
              r == Ok(Reply(Get(resp.body.fields, "data"), None))
    ensures !useExceptions && !UsableReply(resp) ==> r == Ok(Reply(None, None))
    ensures resp.truthy && resp.body.DecodeFail? ==>
              && (r.Err? <==> useExceptions)
              && (r.Err? ==>
                    && r.error.ZohoError?
                    && r.error.message == "JSON Decoding Error: " + resp.body.error.text
                    && r.error.baseEx == Some(resp.body.error)
                    && r.error.httpResponse == Some(ResponseObj(resp)))
  {
    match TryBlock(resp, useExceptions)
    case Finished(r) => r
    case Raised(e) => Err(e)
    case Crashed(text, cause) => GeneralError(resp, text, cause, useExceptions)
    case Completed(data, warning) => AfterTry(data, warning, useExceptions)
  }

  /** The same outcome as the code is written: the generic `except Exception`
      clause also catches the `ZohoError`s that `_log` raises inside the
      `try` block, so they are re-wrapped as general errors, or swallowed
      when exceptions are off. (`RequestException`, never imported, is read
      as the `requests` class it names; a `ZohoError` is not one.) */
  function ClassifyReplyAsWritten(resp: Response, useExceptions: bool): (r: Result<Reply, Error>)
    ensures !useExceptions ==> r.Ok?
    ensures useExceptions ==> (r.Ok? <==> ClassifyReply(resp, useExceptions).Ok?)
    ensures ClassifyReply(resp, useExceptions).Ok? ==> r == ClassifyReply(resp, useExceptions)
    ensures useExceptions && !resp.truthy ==>
              r.Err? && r.error.message == GeneralPrefix + "No HTTP response" && r.error.baseEx.Some?
    ensures resp.truthy && resp.body.DecodeFail? ==> r == ClassifyReply(resp, useExceptions)
  {
    match TryBlock(resp, useExceptions)
    case Finished(r) => r
    case Raised(e) => GeneralError(resp, e.message, AsObj(e), useExceptions)
    case Crashed(text, cause) => GeneralError(resp, text, cause, useExceptions)
    case Completed(data, warning) => AfterTry(data, warning, useExceptions)
  }

  /** A failure status without data: the code sets `throw_exception=True`,
      yet as written the error never reaches the caller when exceptions are
      off, and reaches it re-wrapped when they are on. */
  lemma HardErrorSwallowedAsWritten(resp: Response)
    requires UsableReply(resp) && FailureStatus(resp) && Get(resp.body.fields, "status").value.JObject?
    requires !PresentAndTruthy(Get(resp.body.fields, "data"))
    ensures ClassifyReplyAsWritten(resp, false) == Ok(Reply(None, None))
    ensures ClassifyReply(resp, false).Err?
    ensures ClassifyReplyAsWritten(resp, true).Err?
    ensures StartsWith(ClassifyReplyAsWritten(resp, true).error.message, GeneralPrefix + HardPrefix)
  {
    var e := ClassifyReply(resp, true).error;
    assert TryBlock(resp, true) == Raised(e);
    assert StartsWith(e.message, HardPrefix);
    var m := ClassifyReplyAsWritten(resp, true).error.message;
    assert m == GeneralPrefix + e.message;
    assert m[..|GeneralPrefix + HardPrefix|] == GeneralPrefix + e.message[..|HardPrefix|];
  }

  /** `_call_zoho(path, params, method, use_exceptions)` on client `c`, the API
      being `server`, as the code is written: an invalid method is reported
      before any request; otherwise the one reply is classified with the
      catch-all clause also catching the errors `_log` raises in the `try`
      block, so with exceptions off the call never raises at all. */
  function CallZoho(c: ZohoClient, path: string, params: map<string, string>, httpMethod: string,
                    useExceptions: bool, server: Request -> Response): (r: Result<Reply, Error>)
    ensures ToUpper(httpMethod) !in HttpMethods ==>
              r == (if useExceptions then Err(Raise(InvalidMethodMessage(httpMethod))) else Ok(Reply(None, None)))
    ensures ToUpper(httpMethod) in HttpMethods ==>
              r == ClassifyReplyAsWritten(server(Request(ToUpper(httpMethod), ApiBaseUri + "/" + path,
                                                        map["Authorization" := "Zoho-authtoken " + Show(c.token)], params)),
                                          useExceptions)
    ensures !useExceptions ==> r.Ok?
    ensures useExceptions && r.Ok? ==> PresentAndTruthy(r.value.data)
  {
    var req :- PrepareRestCall(c, path, params, httpMethod, useExceptions);
    if req.None? then Ok(Reply(None, None))
    else ClassifyReplyAsWritten(server(req.value), useExceptions)
  }

  /** `_call_zoho` with the hard error for a failure status without data
      reaching the caller unchanged, as `throw_exception=True` asks. */
  function CallZohoCorrected(c: ZohoClient, path: string, params: map<string, string>, httpMethod: string,
                             useExceptions: bool, server: Request -> Response): (r: Result<Reply, Error>)
    ensures ToUpper(httpMethod) !in HttpMethods ==>
              r == (if useExceptions then Err(Raise(InvalidMethodMessage(httpMethod))) else Ok(Reply(None, None)))
    ensures ToUpper(httpMethod) in HttpMethods ==>
              r == ClassifyReply(server(Request(ToUpper(httpMethod), ApiBaseUri + "/" + path,
                                                map["Authorization" := "Zoho-authtoken " + Show(c.token)], params)),
                                 useExceptions)
    ensures useExceptions && r.Ok? ==> PresentAndTruthy(r.value.data)
  {
    var req :- PrepareRestCall(c, path, params, httpMethod, useExceptions);
    if req.None? then Ok(Reply(None, None))
    else ClassifyReply(server(req.value), useExceptions)
  }

  /** The code as written and the corrected call agree on every call that
      the corrected one completes normally; with exceptions on they also
      agree on whether the call raises. */
  lemma CallZohoAgreesWhenNormal(c: ZohoClient, path: string, params: map<string, string>, httpMethod: string,
                                 useExceptions: bool, server: Request -> Response)
    ensures CallZohoCorrected(c, path, params, httpMethod, useExceptions, server).Ok? ==>
              CallZoho(c, path, params, httpMethod, useExceptions, server)
              == CallZohoCorrected(c, path, params, httpMethod, useExceptions, server)
    ensures useExceptions ==>
              (CallZoho(c, path, params, httpMethod, useExceptions, server).Ok?
               <==> CallZohoCorrected(c, path, params, httpMethod, useExceptions, server).Ok?)
  {
  }
}
